=== FILE: README.md ===
# Odd-one-out taxonomy backends in Dafny

The odd-one-out project solves "which word does not belong" puzzles by
looking words up in a category taxonomy. This model covers four parts:

- the two taxonomy backends the solver walks:
  - `DBpediaTaxonomy`, which queries the DBpedia SPARQL service and memoises
    every answer in two `defaultdict(set)` tables;
  - `WCGTaxonomy`, which reads the categorylinks and page tables of a
    Wikipedia dump;
- the two row-level table readers the Wikipedia backend uses
  (`findPagesInCategory`, `findPagesById`);
- the tokenising of the puzzle-file reader.

## How it is modelled

- **Files.** A table or puzzle file is its sequence of lines, and each
  line is a `string`.
- **Queries.** A SPARQL service is an `Endpoint`: finite maps from a label
  to the answer of each query the taxonomy issues. A query can fail
  (`Failed`), and an ASK can go unanswered.
- **Exceptions.** A Python exception that escapes an operation is an
  `Err` of `Outcomes.Result`, naming the exception: `ValueError` for a
  tuple unpacking with the wrong number of fields, `IndexError`,
  `KeyError`, or `UnboundLocalError`.
- **Object state.** A taxonomy object is an immutable datatype. Every
  operation that mutates the Python object returns the new value next to
  its answer.

### Modules

- `Outcomes`: the result type.
- `Text`: models these Python built-ins:
  - `str.split` and its inverse `join`;
  - `str.strip`;
  - `str.replace`;
  - `set()` of a string;
  - `list.remove`.
- `Paths`: reachability along successor lists.
- `WikiDemo`: the row parsers, `findPagesInCategory` and `findPagesById`.
- `CategoryWalk`: the stack walk of `WCGTaxonomy.get_descendant_instances`,
  written over an abstract expansion function.
- `WikiGraph`: the `WCGTaxonomy` object:
  - the constructor, `get_root` and `num_instances`;
  - `get_ancestor_categories`;
  - `getCategoriesOfPage`;
  - `get_descendant_instances`.
- `Sparql`: the SPARQL service as data.
- `DBpediaAncestors`:
  - `get_ancestor_categories` as a recursive function that threads the
    memo table through;
  - `Closure`, an independent reference definition of the ancestor set
    over acyclic data.
- `DBpediaDescendants`:
  - `get_descendant_instances` as a loop over a one-iteration function
    `Visit`;
  - the invariant that proves it sound and complete with respect to
    reachability along the sub-category links.
- `DBpedia`: the `DBpediaTaxonomy` object:
  - the constructor and its fixed instance count of 52,793,963;
  - `get_root` ("Contents");
  - the two walks as operations on the object.
- `OooReader`: the per-line tokenising of the puzzle reader and the
  positional fields of a puzzle.

### Where the code and its evident intent differ

The exception handlers of both DBpedia walks print a message and carry on.
The ancestor walk's handler pops the entry of the label being answered.
The descendant walk's handlers pop the entry of the popped name `cat`,
although the entry being filled is always the start's (`category_name`).
The evident intent is that a failed query gives an empty answer for that
call and leaves the memo table without a stale entry, so that a later call
queries again. The model follows the code, which differs from that intent
in every case below.

- **DBpedia ancestor cache.**
  - When a label's own parent query fails, the handler pops a key that was
    never created, so `KeyError` escapes (`Ancestors`).
  - When a nested call fails, the caller's entry is popped, and then
    re-created empty by the final read. Every later call answers the empty
    set (`NestedFailurePoisons`).
- **DBpedia descendant walk.**
  - A failed sub-category query on the start category pops the start's
    entry, losing the instances gathered into it. The final read re-creates
    the entry empty (`WipesStart`).
  - A failed member query pops nothing, because the popped label's entry
    is never present at that point.
  - A sub-category is pushed when it is not in the visited set; whether it
    is already on the stack is not checked. A name can therefore be pushed
    twice before it is popped. The visited set is also per call, so names
    seen by an earlier call are walked again.
  - An instance stores `set(cat)`, the set of the label's characters, as
    its own entry. When the same instance is popped a second time in one
    walk, those one-character strings are added to the start's entry.
  - The result is therefore bounded in two ways:
    - `Base` (at least): every reached name's contribution on its first
      visit;
    - `Supplies` (at most): the same, plus the characters of instances.
- **WCGTaxonomy.get_ancestor_categories** returns only the direct parents
  of a page, as its own comment admits. It does not return the transitive
  closure. In addition:
  - When no page row carries the title, the id of the last row read is
    used.
  - With an empty page table, the id is unbound, so `UnboundLocalError`
    escapes.
- **findPagesById** removes each matched id from the caller's list in
  place. A title met twice is rebound to the later row, provided that
  row's id is still in the list when it is read (`LastMatchWins`).
- **The puzzle reader** stores every line's token list. Its indexing
  `puzzle_list[1]` raises `IndexError` on any line with fewer than two
  tokens, which aborts the whole read.

## Model

| member | source | states |
|---|---|---|
| Text.JoinSplit | oddoneout/wiki_demo.py:19 | joining the pieces of `split(sep)` with `sep` gives back the string |
| Text.SplitJoin | oddoneout/wiki_demo.py:37 | splitting a join of separator-free fields gives back exactly those fields |
| Text.StripSpec | oddoneout/wiki_demo.py:19 | `strip('\n')` removes only newlines, and only at the two ends, leaving neither end a newline |
| Text.RemoveFirstCount | oddoneout/wiki_demo.py:41 | `id_list.remove(page_id)` takes away exactly one copy of the id |
| Text.RemoveFirstAt | oddoneout/wiki_demo.py:41 | the copy `remove` drops is the first occurrence |
| WikiDemo.ParseCatlink | oddoneout/wiki_demo.py:19 | a malformed categorylinks row raises ValueError and nothing else |
| WikiDemo.ParseCatlinkSpec | oddoneout/wiki_demo.py:19 | a row unpacks exactly when its newline-stripped text has two tabs; its three fields rejoined with tabs give back that text |
| WikiDemo.ParsePage | oddoneout/wiki_demo.py:37 | a malformed page row raises ValueError and nothing else |
| WikiDemo.ParsePageSpec | oddoneout/wiki_demo.py:37 | a page row unpacks exactly when it has six tabs; id, namespace and title are its first three of seven fields |
| WikiDemo.ParseCatlinks | oddoneout/wiki_demo.py:18-19 | the loop succeeds exactly when every row unpacks, and then gives one row per line |
| WikiDemo.ParseCatlinksAt | oddoneout/wiki_demo.py:18-19 | parsed row i is what line i unpacks to |
| WikiDemo.Classify | oddoneout/wiki_demo.py:21-27 | a row adds its id to the list of its member type if its category is the desired one and the type is page, subcat or file; otherwise it adds nothing |
| WikiDemo.FindPagesInCategory | oddoneout/wiki_demo.py:10-30 | succeeds exactly when every row unpacks (ValueError otherwise); returns at most one id per row |
| WikiDemo.MembersInAppend | oddoneout/wiki_demo.py:18-27 | the lists of a table split in two are the two parts' lists appended: row order is kept and duplicate rows give duplicate ids |
| WikiDemo.MembersFromRows | oddoneout/wiki_demo.py:18-27 | an id is in a list exactly when a row of the desired category with that list's type carries it |
| WikiDemo.FindPagesInCategoryFromRows | oddoneout/wiki_demo.py:10-30 | for the whole file: an id is in a returned list exactly when some line unpacks to the desired category, that id and the list's type |
| WikiDemo.Absorb | oddoneout/wiki_demo.py:39-41 | one page row keeps the dict well-formed: each key listed once, in insertion order |
| WikiDemo.AbsorbSpec | oddoneout/wiki_demo.py:39-41 | a row whose id is still listed binds its title to [id, namespace] and removes one copy of the id; otherwise nothing changes; earlier keys keep their order |
| WikiDemo.LookupLines | oddoneout/wiki_demo.py:36-41 | the loop succeeds exactly when every page row unpacks, and keeps the dict well-formed |
| WikiDemo.LookupLinesCounts | oddoneout/wiki_demo.py:36-41 | each id copy left in the list equals the listed copies minus the rows carrying that id (never below zero); only consuming rows add titles |
| WikiDemo.LookupLinesAppend | oddoneout/wiki_demo.py:36-41 | reading the table in two parts continues from the dict and the list the first part left |
| WikiDemo.LookupFromRows | oddoneout/wiki_demo.py:36-41 | every stored entry was there before, or comes from a row with that title whose id was listed |
| WikiDemo.FindPagesById | oddoneout/wiki_demo.py:32-44 | ValueError exactly on a malformed row; no more titles than ids consumed; the ids left are the ids passed minus one copy per matching row |
| WikiDemo.FindPagesByIdFromRows | oddoneout/wiki_demo.py:32-44 | every returned title maps to the [id, namespace] of a page row with that title whose id was in the list |
| WikiDemo.FindPagesByIdFinds | oddoneout/wiki_demo.py:36-41 | a well-formed row read while its id still has a copy left in the list (fewer earlier rows carried that id than the list held) has its title returned |
| WikiDemo.LastMatchWins | oddoneout/wiki_demo.py:39-40 | a later row whose id is still listed rebinds its title to its own [id, namespace] |
| CategoryWalk.QueueNew | oddoneout/wikigraph.py:67-70 | sub-categories not yet named are queued once each, in the order of their first occurrence in the reply; afterwards every sub-category is named, and the name list stays free of repeats |
| CategoryWalk.Walk | oddoneout/wikigraph.py:52-71 | ValueError exactly when the tables are malformed, leaving the names unchanged; the names only grow, without repeats, and every new name is reachable and is a direct sub-category of the start or of another new name, so the start itself is named only when a reached category links back to it; the result is exactly the pages of the start and of the newly named categories, and that set is closed under sub-category links |
| WikiGraph.Expand | oddoneout/wikigraph.py:60-62 | one iteration's lookups fail (ValueError) exactly when a table is malformed |
| WikiGraph.DescendantInstances | oddoneout/wikigraph.py:52-71 | only cat_name_list changes, growing without repeats; new names are reachable sub-categories, each a direct sub-category of the start or of another new name (so the start is named only if linked to); the result is exactly the pages directly in the start or a newly named category |
| WikiGraph.NewWCG | oddoneout/wikigraph.py:17-23 | construction fails exactly on malformed tables; the named categories are exactly those 'Recipes' reaches along sub-category links, each a direct sub-category of 'Recipes' or of another named category, so 'Recipes' itself is named only when a reached category links to it; the page names are exactly the pages of the categories 'Recipes' reaches, and their count is the instance count |
| WikiGraph.RootClosure | oddoneout/wikigraph.py:22 | a name list closed under the links from the root, all reachable, holds every category the root reaches, so the pages gathered from it are those of the whole reachable part |
| WikiGraph.GetRoot | oddoneout/wikigraph.py:34-37 | the root is the quoted title 'Recipes' |
| WikiGraph.NumInstances | oddoneout/wikigraph.py:31-32 | the stored instance count, which NewWCG sets to the number of pages under the root and no other operation changes |
| WikiGraph.ScanPageId | oddoneout/wikigraph.py:43-47 | the page scan raises ValueError or UnboundLocalError only, and UnboundLocalError exactly on an empty table |
| WikiGraph.ScanPageIdSpec | oddoneout/wikigraph.py:43-47 | on a non-empty table the scan succeeds exactly when a chosen row exists, and then yields that row's id |
| WikiGraph.ChosenRowExists | oddoneout/wikigraph.py:44-47 | a non-empty well-formed table always has a chosen row: the first row with the title, or else the last row |
| WikiGraph.ParentsOfSpec | oddoneout/wikigraph.py:78-81 | a label is collected exactly when a categorylinks row of the page carries it, whatever its member type |
| WikiGraph.CategoriesOfPage | oddoneout/wikigraph.py:74-84 | succeeds exactly when every categorylinks row unpacks, ValueError otherwise |
| WikiGraph.CategoriesOfPageSpec | oddoneout/wikigraph.py:74-84 | the result is exactly the category labels of the lines that unpack to a row of the page |
| WikiGraph.AncestorCategories | oddoneout/wikigraph.py:39-50 | raises only ValueError or UnboundLocalError, and UnboundLocalError exactly on an empty page table |
| WikiGraph.AncestorCategoriesSpec | oddoneout/wikigraph.py:39-50 | on well-formed non-empty tables the result is exactly the direct parents of the chosen row's page |
| DBpediaAncestors.Ancestors | oddoneout/dbpedia.py:84-126 | a cached label is answered from the table with no change; the root gets {} with no entry; KeyError exactly when an uncached non-root label's parent query fails, leaving the table as it was; otherwise the label's entry holds the answer, and no key is ever lost |
| DBpediaAncestors.Collect | oddoneout/dbpedia.py:114-120 | the binding loop keeps every key; on success it answers the node's entry; the only exception it passes on is KeyError |
| DBpediaAncestors.NestedFailurePoisons | oddoneout/dbpedia.py:109-126 | a parent whose query fails raises KeyError; a caller whose first parent it is, whatever its other parents, then answers {} and keeps an empty entry, and every later call answers {} from it |
| DBpediaAncestors.AncestorsExact | oddoneout/dbpedia.py:84-126 | on healthy acyclic data, and a table that is exact below the node's rank, the call answers the node's full ancestor set; it leaves the table exact and touches no key of equal or higher rank other than the node |
| DBpediaAncestors.CollectExact | oddoneout/dbpedia.py:114-120 | on healthy acyclic data, entered with the first i parents gathered in the node's entry, the binding loop answers the node's full ancestor set, stores it, keeps the entries below its rank exact and leaves higher-ranked entries alone |
| DBpediaAncestors.AncestorsFromEmpty | oddoneout/dbpedia.py:84-126 | from an empty table, on healthy acyclic data, the answer is the transitive closure of the parent relation, cut at the root |
| Text.Chars | oddoneout/dbpedia.py:143 | `set(cat)` holds exactly the one-character strings of the characters of `cat` |
| DBpediaDescendants.Normalize | oddoneout/dbpedia.py:130 | spaces become underscores, every other character is kept, and the length is unchanged |
| DBpediaDescendants.Names | oddoneout/dbpedia.py:185 | each returned sub-category label is normalised, in reply order |
| DBpediaDescendants.VisitSpec | oddoneout/dbpedia.py:134-192 | one loop iteration pops the top name and marks it visited, pushes only names not yet visited on top of the rest of the stack, and keeps every entry other than the start's and the popped name's |
| DBpediaDescendants.Unvisited | oddoneout/dbpedia.py:184-187 | a name is pushed exactly when it is bound and not yet visited |
| DBpediaDescendants.AddAll | oddoneout/dbpedia.py:160-162 | the start's entry gains exactly the added labels, and is created only if there is one; other entries are untouched |
| DBpediaDescendants.Discard | oddoneout/dbpedia.py:166-167 | the popped label loses its entry; every other entry is untouched |
| DBpediaDescendants.DescendantInstances | oddoneout/dbpedia.py:129-194 | the answer is the normalised start's entry; a cached start changes nothing; other old entries are kept; every new entry is a reachable instance holding its characters; an uncached instance start answers its characters plus itself; a failed sub-category query on the start answers {} and leaves an empty entry; every answered label is supplied by a reachable name; unless the start is wiped, every label a reachable name contributes on its first visit is answered (reachable: along sub-category links, not expanding names with an entry or instances) |
| DBpedia.New | oddoneout/dbpedia.py:17-34 | a new object has empty ancestor and descendant tables and reports 52,793,963 instances |
| DBpedia.GetRoot | oddoneout/dbpedia.py:76-77 | the root is "Contents", whose ancestor set is empty, answered without any query or table change (or its stored entry, if one exists) |
| DBpedia.NumInstances | oddoneout/dbpedia.py:80-81 | the stored instance count, which the constructor fixes and no other operation changes |
| DBpedia.AncestorCategories | oddoneout/dbpedia.py:84-126 | a call updates only the ancestor table, and only grows it |
| DBpedia.DescendantInstances | oddoneout/dbpedia.py:129-194 | a call updates only the descendant table; the answer is the normalised start's entry |
| DBpedia.FreshAncestors | oddoneout/dbpedia.py:17-34 | a fresh object on healthy acyclic data answers the full ancestor set; asked again, it answers the same from its table |
| OooReader.RunLength | ooo_reader.py:20 | the leading run holds no separator and ends at a separator or at the end of the line |
| OooReader.Tokenize | ooo_reader.py:20 | every token is non-empty and separator-free |
| OooReader.TokensCoverLine | ooo_reader.py:20 | the tokens concatenated are the line with its tabs, commas and newlines deleted |
| OooReader.TokenizeAround | ooo_reader.py:20 | a separator splits a line's tokens into those before it followed by those after it |
| OooReader.TokenizeWord | ooo_reader.py:20 | a non-empty separator-free string is one token |
| OooReader.TokenizeJoin | ooo_reader.py:20 | splitting a comma-join of tokens gives the tokens back |
| OooReader.PuzzleFields | ooo_reader.py:24-27 | IndexError exactly when a line has fewer than two tokens; category, odd one and members re-assemble the token list |
| OooReader.ReadPuzzles | ooo_reader.py:15-30 | IndexError exactly when some line has fewer than two tokens; otherwise one token list per line, in order |

## Left out

- The lowest-common-ancestor search, the specificity measure, the
  similarity scorer, the puzzle solver and the batch evaluator: they are
  not part of this model.
- `is_instance` and `is_category` of both backends: they appear only as
  the ASK answers of the `Endpoint` (DBpedia). The Wikipedia versions
  depend on the specificity measure, which is left out.
- The query text, the SPARQL protocol and JSON decoding are abstracted
  into the `Endpoint` maps, keyed by the label a query is about. A failure
  part-way through reading the bindings of a reply is not modelled; a
  reply either fails before any binding is read or succeeds whole.
- File opening and closing, and the console messages of the handlers: the
  model has no I/O.
- `main` of `ooo_reader.py`: it opens the file itself; the model takes
  the lines. The unused local variables of lines 24-27 are modelled only
  as far as their indexing can raise.
- The unused `root` argument of `getCategoriesOfPage` is not a parameter
  of `WikiGraph.CategoriesOfPage`.
- `findPagesById` mutates the caller's id list in place. The model returns
  the list that is left (`remaining`). No caller in the core reuses its
  list, so `WikiGraph` drops it.
- The object identity of the returned sets is not modelled. The DBpedia
  `get_ancestor_categories` returns the cached set itself on a cache hit,
  a fresh empty set for the root, and a copy otherwise. The DBpedia
  `get_descendant_instances` always returns the live entry of the start
  category. No caller in the core mutates a returned set.
- DBpediaAncestors.Ancestors: the exact answer (`AncestorsExact`) is
  proved only for healthy data whose parent relation is acyclic, given as
  a rank that strictly drops from a label to each parent. On cyclic data
  the answer depends on the order of the recursive calls, and the model
  states only the cache and error facts.
- Python's recursion limit: `get_ancestor_categories` recurses once per
  fresh label along a depth-first path, and a `RecursionError` would be
  caught by the bare `except` of `dbpedia.py:122`, popping the label's
  entry. `DBpediaAncestors.Ancestors` recurses without a depth bound and
  does not model that case.
- Text.Strip: its own contract bounds only the length. The full
  characterisation is the separate lemma `Text.StripSpec`.

=== FILE: dbpedia.dfy ===
/** The DBpedia taxonomy object: the service it queries and its two memo
    tables, which persist from call to call. The instance count is a fixed
    figure rather than a computed one. */
module DBpedia {
  import opened Outcomes
  import opened Sparql
  import DBpediaAncestors
  import DBpediaDescendants

  /** The number of Wikipedia pages the taxonomy reports as its instance
      count (the figure for 25 February 2021). */
  const PageCount: nat := 52793963

  datatype DBpediaTaxonomy = DBpediaTaxonomy(
    ep: Endpoint,
    ancestors: DBpediaAncestors.Cache,
    descendants: DBpediaAncestors.Cache,
    numInsts: nat)

  /** The constructor: empty memo tables and the fixed instance count. */
  function New(ep: Endpoint): (t: DBpediaTaxonomy)
    ensures t.ep == ep && t.ancestors == map[] && t.descendants == map[]
    ensures NumInstances(t) == 52793963
  {
    DBpediaTaxonomy(ep, map[], map[], PageCount)
  }

  /** get_root: "Contents", the one label whose ancestor set is empty without
      any query (unless an entry for it was already stored). */
  function GetRoot(t: DBpediaTaxonomy): (r: string)
    ensures r == "Contents"
    ensures AncestorCategories(t, r) == (if r in t.ancestors then (Ok(t.ancestors[r]), t) else (Ok({}), t))
  {
    DBpediaAncestors.Root
  }

  /** num_instances: the stored count, fixed at construction and kept by
      every other operation. */
  function NumInstances(t: DBpediaTaxonomy): (n: nat)
    ensures n == t.numInsts
  {
    t.numInsts
  }

  /** get_ancestor_categories on the object: the answer, and the object with
      its ancestor table updated and everything else as it was. */
  function AncestorCategories(t: DBpediaTaxonomy, node: string): (r: (Result<set<string>>, DBpediaTaxonomy))
    ensures r.1.ep == t.ep && r.1.descendants == t.descendants && r.1.numInsts == t.numInsts
    ensures t.ancestors.Keys <= r.1.ancestors.Keys
  {
    var s := DBpediaAncestors.Ancestors(t.ep, node, t.ancestors);
    (s.out, t.(ancestors := s.cache))
  }

  /** get_descendant_instances on the object: the answer, and the object with
      its descendant table updated and everything else as it was. */
  method DescendantInstances(t: DBpediaTaxonomy, node: string) returns (r: set<string>, t': DBpediaTaxonomy)
    ensures t'.ep == t.ep && t'.ancestors == t.ancestors && t'.numInsts == t.numInsts
    ensures var start := DBpediaDescendants.Normalize(node);
      start in t'.descendants && r == t'.descendants[start]
  {
    var cache;
    r, cache := DBpediaDescendants.DescendantInstances(t.ep, t.descendants, node);
    t' := t.(descendants := cache);
  }

  /** A fresh object, asked for the ancestors of any label of healthy acyclic
      data, answers the label's full ancestor set; asked again, it answers the
      same from its table without querying. */
  lemma FreshAncestors(ep: Endpoint, h: string -> nat, node: string)
    requires DBpediaAncestors.Healthy(ep) && DBpediaAncestors.Graded(ep, h)
    ensures var (r, t) := AncestorCategories(New(ep), node);
      && r == Ok(DBpediaAncestors.Closure(ep, h, node))
      && AncestorCategories(t, node).0 == r
  {
    DBpediaAncestors.AncestorsFromEmpty(ep, h, node);
  }
}

=== FILE: dbpedia_ancestors.dfy ===
/** get_ancestor_categories of the DBpedia taxonomy: a memoised recursive
    union over the parents the service reports, with the memo table (a
    defaultdict(set) in the source) threaded through every call. */
module DBpediaAncestors {
  import opened Outcomes
  import opened Sparql

  /** The root of the DBpedia category tree. */
  const Root: string := "Contents"

  /** A defaultdict(set) keyed by label. */
  type Cache = map<string, set<string>>

  /** A call's return value (or the exception it lets escape) and the cache
      after it. */
  datatype Step = Step(out: Result<set<string>>, cache: Cache)

  /** The parent query for a label: skos:broader when the label is a category,
      dct:subject otherwise (also when the category ASK fails). */
  function ParentQuery(ep: Endpoint, node: string): Reply {
    if Ask(ep.categoryAsk, node) == Yes then Select(ep.broader, node) else Select(ep.subjects, node)
  }

  /** Every label a parent query can bind. */
  ghost function ParentLabels(ep: Endpoint): set<string> {
    BoundLabels(ep.broader) + BoundLabels(ep.subjects)
  }

  lemma ParentQueryBound(ep: Endpoint, node: string)
    ensures forall l :: l in Bound(ParentQuery(ep, node)) ==> l in ParentLabels(ep)
  {
    SelectBound(ep.broader, node);
    SelectBound(ep.subjects, node);
  }

  /** get_ancestor_categories(node). A cached label is answered from the
      cache; the root gets the empty set without an entry; otherwise the
      parent query runs. If it fails before the node has an entry, the
      handler's pop raises KeyError. Otherwise each parent is folded in (see
      Collect); if a nested call raises, the handler pops the node's entry and
      the final read re-creates it empty. */
  function Ancestors(ep: Endpoint, node: string, cache: Cache): (r: Step)
    ensures cache.Keys <= r.cache.Keys
    ensures node in cache ==> r == Step(Ok(cache[node]), cache)
    ensures node !in cache && node == Root ==> r == Step(Ok({}), cache)
    ensures r.out.Err? <==> node !in cache && node != Root && ParentQuery(ep, node).Failed?
    ensures r.out.Err? ==> r.out.error == KeyError && r.cache == cache
    ensures r.out.Ok? && node != Root ==> node in r.cache && r.cache[node] == r.out.value
    decreases |(ParentLabels(ep) + {node}) - cache.Keys|, 0, 0
  {
    if node in cache then Step(Ok(cache[node]), cache)
    else if node == Root then Step(Ok({}), cache)
    else
      match ParentQuery(ep, node)
      case Failed => Step(Err(KeyError), cache)
      case Rows(labels) =>
        ParentQueryBound(ep, node);
        var start := cache[node := {}];
        assert start.Keys == cache.Keys + {node};
        MeasureDrops(ParentLabels(ep), node, cache.Keys);
        var s := Collect(ep, node, labels, 0, start);
        if s.out.Err? then Step(Ok({}), s.cache[node := {}])
        else Step(Ok(s.cache[node]), s.cache)
  }

  /** The loop over the parent labels from index i on. A label already in the
      node's entry is skipped; otherwise its ancestors, then the label, are
      added to the entry. An exception from a nested call ends the loop. */
  function Collect(ep: Endpoint, node: string, labels: seq<string>, i: nat, cache: Cache): (r: Step)
    requires i <= |labels|
    requires forall l :: l in labels ==> l in ParentLabels(ep)
    requires node in cache
    ensures cache.Keys <= r.cache.Keys
    ensures r.out.Ok? ==> r.out.value == r.cache[node]
    ensures r.out.Err? ==> r.out.error == KeyError
    decreases |ParentLabels(ep) - cache.Keys|, 1, |labels| - i
  {
    if i == |labels| then Step(Ok(cache[node]), cache)
    else
      var l := labels[i];
      if l in cache[node] then Collect(ep, node, labels, i + 1, cache)
      else
        assert ParentLabels(ep) + {l} == ParentLabels(ep);
        var s := Ancestors(ep, l, cache);
        if s.out.Err? then s
        else
          var next := s.cache[node := s.cache[node] + s.out.value + {l}];
          SubsetMeasure(ParentLabels(ep), cache.Keys, next.Keys);
          Collect(ep, node, labels, i + 1, next)
  }

  /** Giving the node an entry lowers the count of labels without one. */
  lemma MeasureDrops(u: set<string>, node: string, keys: set<string>)
    requires node !in keys
    ensures |u - (keys + {node})| < |(u + {node}) - keys|
  {
    var small := u - (keys + {node});
    assert (u + {node}) - keys == small + {node};
  }

  /** More keys never raise the count of labels without one. */
  lemma SubsetMeasure(u: set<string>, a: set<string>, b: set<string>)
    requires a <= b
    ensures |u - b| <= |u - a|
  {
    assert u - a == (u - b) + ((u - a) - (u - b));
  }

  /** A failed parent query of a label that has no entry yet raises; one
      reached through a nested call (here the caller's first parent, whatever
      parents follow it) leaves the caller's entry empty for good: the caller
      answers the empty set, and so does every later call. */
  lemma NestedFailurePoisons(ep: Endpoint, node: string, l: string, rest: seq<string>, cache: Cache)
    requires node !in cache && node != Root && ParentQuery(ep, node) == Rows([l] + rest)
    requires l !in cache && l != Root && ParentQuery(ep, l).Failed?
    ensures Ancestors(ep, l, cache) == Step(Err(KeyError), cache)
    ensures Ancestors(ep, node, cache) == Step(Ok({}), cache[node := {}])
    ensures Ancestors(ep, node, cache[node := {}]) == Step(Ok({}), cache[node := {}])
  {
    ParentQueryBound(ep, node);
    var start := cache[node := {}];
    assert l !in start[node];
    assert Collect(ep, node, [l] + rest, 0, start) == Step(Err(KeyError), start);
  }

  /** Every parent query answers. */
  ghost predicate Healthy(ep: Endpoint) {
    && (forall m :: m in ep.broader ==> ep.broader[m].Rows?)
    && (forall m :: m in ep.subjects ==> ep.subjects[m].Rows?)
  }

  /** The parents the service reports for a label. */
  function Parents(ep: Endpoint, node: string): seq<string> {
    Bound(ParentQuery(ep, node))
  }

  /** `h` ranks labels so that every parent ranks strictly below its child:
      the parent relation is acyclic. */
  ghost predicate Graded(ep: Endpoint, h: string -> nat) {
    forall m, l :: l in Parents(ep, m) ==> h(l) < h(m)
  }

  /** The ancestors of a label on acyclic data: nothing above the root, and
      otherwise each parent together with the parent's own ancestors. */
  ghost function Closure(ep: Endpoint, h: string -> nat, node: string): set<string>
    requires Graded(ep, h)
    decreases h(node), 1, 0
  {
    if node == Root then {} else Gather(ep, h, node, |Parents(ep, node)|)
  }

  /** The union of {p} and Closure(p) over the first n parents of node. */
  ghost function Gather(ep: Endpoint, h: string -> nat, node: string, n: nat): set<string>
    requires Graded(ep, h) && n <= |Parents(ep, node)|
    decreases h(node), 0, n
  {
    if n == 0 then {}
    else
      var p := Parents(ep, node)[n - 1];
      Gather(ep, h, node, n - 1) + {p} + Closure(ep, h, p)
  }

  /** Entries of labels ranked below b hold their exact ancestor sets. */
  ghost predicate ExactBelow(ep: Endpoint, h: string -> nat, cache: Cache, b: nat)
    requires Graded(ep, h)
  {
    forall k :: k in cache && h(k) < b ==> cache[k] == Closure(ep, h, k)
  }

  /** Entries other than `node` ranked at or above it are neither added nor changed. */
  ghost predicate FrameAbove(h: string -> nat, node: string, before: Cache, after: Cache) {
    forall k :: k in after && k != node && h(k) >= h(node) ==> k in before && after[k] == before[k]
  }

  lemma {:induction false} GatherMember(ep: Endpoint, h: string -> nat, node: string, n: nat, x: string)
    requires Graded(ep, h) && n <= |Parents(ep, node)|
    ensures x in Gather(ep, h, node, n) <==>
      exists j :: 0 <= j < n && (x == Parents(ep, node)[j] || x in Closure(ep, h, Parents(ep, node)[j]))
  {
    if n > 0 {
      GatherMember(ep, h, node, n - 1, x);
    }
  }

  /** The ancestors of an ancestor are ancestors. */
  lemma {:induction false} ClosureTransitive(ep: Endpoint, h: string -> nat, m: string, l: string)
    requires Graded(ep, h) && l in Closure(ep, h, m)
    ensures Closure(ep, h, l) <= Closure(ep, h, m)
    decreases h(m)
  {
    var ps := Parents(ep, m);
    GatherMember(ep, h, m, |ps|, l);
    var j :| 0 <= j < |ps| && (l == ps[j] || l in Closure(ep, h, ps[j]));
    assert h(ps[j]) < h(m);
    if l != ps[j] {
      ClosureTransitive(ep, h, ps[j], l);
    }
    forall x | x in Closure(ep, h, l)
      ensures x in Closure(ep, h, m)
    {
      GatherMember(ep, h, m, |ps|, x);
    }
  }

  /** On healthy acyclic data, with exact entries below the node, the call
      returns the node's exact ancestor set, keeps the entries exact up to the
      node's rank, and leaves the entries ranked higher alone. */
  lemma {:induction false} AncestorsExact(ep: Endpoint, h: string -> nat, node: string, cache: Cache)
    requires Healthy(ep) && Graded(ep, h)
    requires ExactBelow(ep, h, cache, h(node) + 1)
    ensures var r := Ancestors(ep, node, cache);
      && r.out == Ok(Closure(ep, h, node))
      && ExactBelow(ep, h, r.cache, h(node) + 1)
      && FrameAbove(h, node, cache, r.cache)
    decreases h(node), 1, 0, 0
  {
    if node !in cache && node != Root {
      var labels := Parents(ep, node);
      assert ParentQuery(ep, node) == Rows(labels);
      ParentQueryBound(ep, node);
      var start := cache[node := {}];
      CollectExact(ep, h, node, 0, start);
      var s := Collect(ep, node, labels, 0, start);
      forall k | k in s.cache && h(k) < h(node) + 1
        ensures s.cache[k] == Closure(ep, h, k)
      {
        if k != node && h(k) == h(node) {
          assert k in cache;
        }
      }
    }
  }

  /** The loop over the parents, entered with the first i gathered and exact
      entries below the node, gathers them all. */
  lemma {:induction false} CollectExact(ep: Endpoint, h: string -> nat, node: string, i: nat, cache: Cache)
    requires Healthy(ep) && Graded(ep, h) && node != Root
    requires i <= |Parents(ep, node)|
    requires forall l :: l in Parents(ep, node) ==> l in ParentLabels(ep)
    requires node in cache && cache[node] == Gather(ep, h, node, i)
    requires ExactBelow(ep, h, cache, h(node))
    ensures var r := Collect(ep, node, Parents(ep, node), i, cache);
      && r.out == Ok(Closure(ep, h, node))
      && r.cache[node] == Closure(ep, h, node)
      && ExactBelow(ep, h, r.cache, h(node))
      && FrameAbove(h, node, cache, r.cache)
    decreases h(node), 0, |Parents(ep, node)| - i, 1
  {
    var labels := Parents(ep, node);
    if i == |labels| {
      assert Closure(ep, h, node) == Gather(ep, h, node, i);
    } else if labels[i] in cache[node] {
      assert h(labels[i]) < h(node);
      GatherSkip(ep, h, node, i);
      CollectExact(ep, h, node, i + 1, cache);
      assert Collect(ep, node, labels, i, cache) == Collect(ep, node, labels, i + 1, cache);
    } else {
      CollectNestedExact(ep, h, node, i, cache);
    }
  }

  /** The step of the loop that recurses into a parent not yet gathered. */
  lemma {:induction false} CollectNestedExact(ep: Endpoint, h: string -> nat, node: string, i: nat, cache: Cache)
    requires Healthy(ep) && Graded(ep, h) && node != Root
    requires i < |Parents(ep, node)|
    requires forall l :: l in Parents(ep, node) ==> l in ParentLabels(ep)
    requires node in cache && cache[node] == Gather(ep, h, node, i)
    requires Parents(ep, node)[i] !in cache[node]
    requires ExactBelow(ep, h, cache, h(node))
    ensures var r := Collect(ep, node, Parents(ep, node), i, cache);
      && r.out == Ok(Closure(ep, h, node))
      && r.cache[node] == Closure(ep, h, node)
      && ExactBelow(ep, h, r.cache, h(node))
      && FrameAbove(h, node, cache, r.cache)
    decreases h(node), 0, |Parents(ep, node)| - i, 0
  {
    var l := Parents(ep, node)[i];
    assert h(l) < h(node);
    AncestorsExact(ep, h, l, cache);
    var next := NestedNext(ep, h, node, i, cache);
    CollectExact(ep, h, node, i + 1, next);
    FrameCompose(h, node, cache, next, Collect(ep, node, Parents(ep, node), i + 1, next).cache);
  }

  /** The cache after the nested call for the i-th parent and the update of
      the node's entry, given what that nested call returned. */
  lemma NestedNext(ep: Endpoint, h: string -> nat, node: string, i: nat, cache: Cache) returns (next: Cache)
    requires Graded(ep, h) && node != Root
    requires i < |Parents(ep, node)|
    requires forall l :: l in Parents(ep, node) ==> l in ParentLabels(ep)
    requires node in cache && cache[node] == Gather(ep, h, node, i)
    requires Parents(ep, node)[i] !in cache[node]
    requires ExactBelow(ep, h, cache, h(node))
    requires var l := Parents(ep, node)[i]; var s := Ancestors(ep, l, cache);
      && s.out == Ok(Closure(ep, h, l))
      && ExactBelow(ep, h, s.cache, h(l) + 1)
      && FrameAbove(h, l, cache, s.cache)
    ensures node in next && next[node] == Gather(ep, h, node, i + 1)
    ensures ExactBelow(ep, h, next, h(node)) && FrameAbove(h, node, cache, next)
    ensures Collect(ep, node, Parents(ep, node), i, cache) == Collect(ep, node, Parents(ep, node), i + 1, next)
  {
    var l := Parents(ep, node)[i];
    var s := Ancestors(ep, l, cache);
    next := s.cache[node := s.cache[node] + s.out.value + {l}];
    ExactAfterNested(ep, h, node, l, cache, s.cache, next);
  }

  lemma FrameCompose(h: string -> nat, node: string, a: Cache, b: Cache, c: Cache)
    requires FrameAbove(h, node, a, b) && FrameAbove(h, node, b, c)
    ensures FrameAbove(h, node, a, c)
  {
  }

  /** A parent already gathered adds nothing new: its ancestors are there too. */
  lemma GatherSkip(ep: Endpoint, h: string -> nat, node: string, i: nat)
    requires Graded(ep, h) && i < |Parents(ep, node)|
    requires Parents(ep, node)[i] in Gather(ep, h, node, i)
    ensures Gather(ep, h, node, i + 1) == Gather(ep, h, node, i)
  {
    var labels := Parents(ep, node);
    var l := labels[i];
    GatherMember(ep, h, node, i, l);
    var j :| 0 <= j < i && (l == labels[j] || l in Closure(ep, h, labels[j]));
    if l != labels[j] {
      ClosureTransitive(ep, h, labels[j], l);
    }
    forall x | x in Closure(ep, h, l)
      ensures x in Gather(ep, h, node, i)
    {
      GatherMember(ep, h, node, i, x);
    }
  }

  /** After the nested call for a lower-ranked parent l, updating the node's
      entry keeps the entries below the node exact and those above it alone. */
  lemma ExactAfterNested(ep: Endpoint, h: string -> nat, node: string, l: string,
                         cache: Cache, mid: Cache, next: Cache)
    requires Graded(ep, h) && h(l) < h(node)
    requires ExactBelow(ep, h, cache, h(node))
    requires ExactBelow(ep, h, mid, h(l) + 1) && FrameAbove(h, l, cache, mid)
    requires node in next && next == mid[node := next[node]]
    ensures ExactBelow(ep, h, next, h(node))
    ensures FrameAbove(h, node, cache, next)
  {
    forall k | k in next && h(k) < h(node)
      ensures next[k] == Closure(ep, h, k)
    {
      if h(k) > h(l) {
        assert k in cache;
      }
    }
  }

  /** From an empty cache, on healthy acyclic data, get_ancestor_categories
      returns the transitive closure of the parent relation, cut at the root. */
  lemma AncestorsFromEmpty(ep: Endpoint, h: string -> nat, node: string)
    requires Healthy(ep) && Graded(ep, h)
    ensures Ancestors(ep, node, map[]).out == Ok(Closure(ep, h, node))
  {
    AncestorsExact(ep, h, node, map[]);
  }
}

=== FILE: dbpedia_descendants.dfy ===
/** get_descendant_instances of the DBpedia taxonomy: a stack walk down the
    sub-category links that accumulates, in the memo table entry of the
    start category, the instances it meets. The memo table (a
    defaultdict(set) in the source) persists across calls; the visited set is
    per call. */
module DBpediaDescendants {
  import opened Sparql
  import Text
  import Paths
  import DBpediaAncestors

  type Cache = DBpediaAncestors.Cache

  /** The walk's state: the stack of category names, the names already
      popped, and the memo table. */
  datatype Walk = Walk(stack: seq<string>, visited: set<string>, cache: Cache)

  /** replace(' ', '_') followed by replace('"', '\"'); in Python '\"' is the
      one-character string '"', so the second replacement changes nothing. */
  function Normalize(name: string): (r: string)
    ensures |r| == |name| && ' ' !in r
    ensures forall k :: 0 <= k < |name| && name[k] == ' ' ==> r[k] == '_'
    ensures forall k :: 0 <= k < |name| && name[k] != ' ' ==> r[k] == name[k]
  {
    Text.Replace(name, ' ', '_')
  }

  /** The normalised names of some SELECT bindings, in reply order. */
  function Names(labels: seq<string>): (r: seq<string>)
    ensures |r| == |labels|
    ensures forall k :: 0 <= k < |labels| ==> r[k] == Normalize(labels[k])
  {
    seq(|labels|, k requires 0 <= k < |labels| => Normalize(labels[k]))
  }

  /** The names of ns that are not in v, in order (the pushes of one expansion). */
  function Unvisited(ns: seq<string>, v: set<string>): (r: seq<string>)
    ensures forall x :: x in r <==> x in ns && x !in v
  {
    if |ns| == 0 then []
    else if ns[0] in v then Unvisited(ns[1..], v)
    else [ns[0]] + Unvisited(ns[1..], v)
  }

  /** d[k], reading an absent key of a defaultdict(set) as the empty set. */
  function Entry(c: Cache, k: string): set<string> {
    if k in c then c[k] else {}
  }

  /** `for x in xs: d[k].add(x)`: the entry is created only if xs is not empty. */
  function AddAll(c: Cache, k: string, xs: set<string>): (r: Cache)
    ensures Entry(r, k) == Entry(c, k) + xs
    ensures r.Keys == (if xs == {} then c.Keys else c.Keys + {k})
    ensures forall j :: j in c && j != k ==> r[j] == c[j]
  {
    if xs == {} then c else c[k := Entry(c, k) + xs]
  }

  /** `if k in d: d.pop(k)`. */
  function Discard(c: Cache, k: string): (r: Cache)
    ensures r.Keys == c.Keys - {k}
    ensures forall j :: j in r ==> r[j] == c[j]
    ensures forall j :: j != k ==> Entry(r, j) == Entry(c, j)
  {
    if k in c then c - {k} else c
  }

  /** One iteration of the while loop: pop a name and mark it visited. A name
      with an entry hands its entry to the start's; an instance gets the entry
      set(cat), the characters of its label, and is itself added to the
      start's entry; any other name is a category whose member labels are
      added to the start's entry and whose unvisited sub-categories are
      pushed. A failed query pops the popped name's entry if it has one. */
  function Visit(ep: Endpoint, start: string, w: Walk): Walk
    requires |w.stack| > 0
  {
    var cat := w.stack[|w.stack| - 1];
    var stack := w.stack[..|w.stack| - 1];
    var visited := w.visited + {cat};
    if cat in w.cache then
      Walk(stack, visited, AddAll(w.cache, start, w.cache[cat]))
    else if Ask(ep.instanceAsk, cat) == Yes then
      Walk(stack, visited, AddAll(w.cache[cat := Text.Chars(cat)], start, {cat}))
    else
      var afterMembers :=
        match Select(ep.members, cat)
        case Rows(ls) => AddAll(w.cache, start, Text.Elems(ls))
        case Failed => Discard(w.cache, cat);
      match Select(ep.subcats, cat)
      case Rows(ls) => Walk(stack + Unvisited(Names(ls), visited), visited, afterMembers)
      case Failed => Walk(stack, visited, Discard(afterMembers, cat))
  }

  /** One iteration pops the top name and marks it visited, pushes only
      names not yet visited on top of the rest of the stack, and keeps every
      entry other than the start's and the popped name's. */
  lemma VisitSpec(ep: Endpoint, start: string, w: Walk)
    requires |w.stack| > 0
    ensures var r := Visit(ep, start, w); var cat := w.stack[|w.stack| - 1];
      && r.visited == w.visited + {cat}
      && w.stack[..|w.stack| - 1] <= r.stack
      && (forall i :: |w.stack| - 1 <= i < |r.stack| ==> r.stack[i] !in r.visited)
      && (forall k :: k in w.cache && k != start && k != cat ==> k in r.cache && r.cache[k] == w.cache[k])
  {
  }

  /** The sub-category links the walk follows, relative to the memo table it
      starts from: a name with an entry, or an instance, is not expanded. */
  function Children(ep: Endpoint, cache0: Cache): string -> seq<string> {
    c => if c in cache0 || Ask(ep.instanceAsk, c) == Yes then [] else Names(Bound(Select(ep.subcats, c)))
  }

  /** What a reached name contributes at least, on its first visit. */
  function Base(ep: Endpoint, cache0: Cache, c: string): set<string> {
    if c in cache0 then cache0[c]
    else if Ask(ep.instanceAsk, c) == Yes then {c}
    else Text.Elems(Bound(Select(ep.members, c)))
  }

  /** What a reached name can contribute at most: an instance visited twice
      hands over, the second time, the characters set(cat) stored for it. */
  function Supplies(ep: Endpoint, cache0: Cache, c: string): set<string> {
    if c in cache0 then cache0[c]
    else if Ask(ep.instanceAsk, c) == Yes then Text.Chars(c) + {c}
    else Text.Elems(Bound(Select(ep.members, c)))
  }

  /** The start is a category without an entry whose sub-category query
      fails: the handler pops the entry its members were just added to. */
  predicate WipesStart(ep: Endpoint, cache0: Cache, start: string) {
    start !in cache0 && Ask(ep.instanceAsk, start) != Yes && Select(ep.subcats, start).Failed?
  }

  /** Every name the walk can hold: the start and every normalised
      sub-category label of the data. */
  ghost function Universe(ep: Endpoint, start: string): set<string> {
    {start} + (set l | l in BoundLabels(ep.subcats) :: Normalize(l))
  }

  /** The number of stack entries already visited. */
  function VisitedCount(s: seq<string>, v: set<string>): nat {
    if |s| == 0 then 0 else VisitedCount(s[..|s| - 1], v) + (if s[|s| - 1] in v then 1 else 0)
  }

  // ---------------------------------------------------------------------
  // The loop invariant, in parts

  ghost predicate Shape(ep: Endpoint, cache0: Cache, start: string, w: Walk) {
    && (w.visited == {} ==> w.stack == [start] && w.cache == cache0)
    && (w.visited != {} ==> start in w.visited && start !in w.stack)
    && (forall x :: x in w.stack ==> x in Universe(ep, start))
    && w.visited <= Universe(ep, start)
  }

  /** Old entries other than the start's are untouched; new ones are
      instances already visited, holding their characters. */
  ghost predicate Framed(ep: Endpoint, cache0: Cache, start: string, w: Walk) {
    && (forall k :: k in cache0 && k != start ==> k in w.cache && w.cache[k] == cache0[k])
    && (forall k :: k in w.cache && k !in cache0 && k != start ==>
          w.cache[k] == Text.Chars(k) && Ask(ep.instanceAsk, k) == Yes && k in w.visited)
  }

  /** The three ways the first iteration can end the walk. */
  ghost predicate StartCases(ep: Endpoint, cache0: Cache, start: string, w: Walk) {
    && (start in cache0 ==> w.cache == cache0 && (w.visited != {} ==> w.stack == []))
    && (start !in cache0 && Ask(ep.instanceAsk, start) == Yes && w.visited != {} ==>
          w.stack == [] && Entry(w.cache, start) == Text.Chars(start) + {start})
    && (WipesStart(ep, cache0, start) && w.visited != {} ==> w.stack == [] && w.cache == cache0)
  }

  /** Everything visited or on the stack is reached from the start. */
  ghost predicate ReachedFrom(succ: string -> seq<string>, start: string, stack: seq<string>, visited: set<string>) {
    forall c :: c in visited || c in stack ==> Paths.Reaches(succ, start, c)
  }

  /** Every successor of a visited name is visited or on the stack. */
  ghost predicate ClosedUnder(succ: string -> seq<string>, stack: seq<string>, visited: set<string>) {
    forall c, d :: c in visited && d in succ(c) ==> d in visited || d in stack
  }

  ghost predicate Reached(ep: Endpoint, cache0: Cache, start: string, w: Walk) {
    ReachedFrom(Children(ep, cache0), start, w.stack, w.visited)
  }

  ghost predicate Closed(ep: Endpoint, cache0: Cache, w: Walk) {
    ClosedUnder(Children(ep, cache0), w.stack, w.visited)
  }

  ghost predicate Sound(ep: Endpoint, cache0: Cache, start: string, w: Walk) {
    start !in cache0 ==>
      forall x :: x in Entry(w.cache, start) ==> exists c :: c in w.visited && x in Supplies(ep, cache0, c)
  }

  ghost predicate Complete(ep: Endpoint, cache0: Cache, start: string, w: Walk) {
    !WipesStart(ep, cache0, start) ==>
      forall c, x :: c in w.visited && x in Base(ep, cache0, c) ==> x in Entry(w.cache, start)
  }

  ghost predicate Inv(ep: Endpoint, cache0: Cache, start: string, w: Walk) {
    && Shape(ep, cache0, start, w)
    && Framed(ep, cache0, start, w)
    && StartCases(ep, cache0, start, w)
    && Reached(ep, cache0, start, w)
    && Closed(ep, cache0, w)
    && Sound(ep, cache0, start, w)
    && Complete(ep, cache0, start, w)
  }

  /** get_descendant_instances(node): returns the start category's entry
      after the walk (created empty by the final read if it has none). */
  method DescendantInstances(ep: Endpoint, cache: Cache, node: string) returns (r: set<string>, cache': Cache)
    ensures Normalize(node) in cache' && r == cache'[Normalize(node)]
    ensures Normalize(node) in cache ==> cache' == cache
    ensures forall k :: k in cache ==> k in cache' && (k != Normalize(node) ==> cache'[k] == cache[k])
    ensures forall k :: k in cache' && k !in cache && k != Normalize(node) ==>
      cache'[k] == Text.Chars(k) && Ask(ep.instanceAsk, k) == Yes && Paths.Reaches(Children(ep, cache), Normalize(node), k)
    ensures Normalize(node) !in cache && Ask(ep.instanceAsk, Normalize(node)) == Yes ==> r == Text.Chars(Normalize(node)) + {Normalize(node)}
    ensures WipesStart(ep, cache, Normalize(node)) ==> r == {} && cache' == cache[Normalize(node) := {}]
    ensures forall x :: x in r ==> exists c :: Paths.Reaches(Children(ep, cache), Normalize(node), c) && x in Supplies(ep, cache, c)
    ensures !WipesStart(ep, cache, Normalize(node)) ==>
      forall c, x :: Paths.Reaches(Children(ep, cache), Normalize(node), c) && x in Base(ep, cache, c) ==> x in r
  {
    var start := Normalize(node);
    var w := Walk([start], {}, cache);
    ghost var u := Universe(ep, start);
    InitInv(ep, cache, start);
    while |w.stack| != 0
      invariant Inv(ep, cache, start, w)
      decreases |u - w.visited|, VisitedCount(w.stack, w.visited)
    {
      VisitStep(ep, cache, start, w);
      w := Visit(ep, start, w);
    }
    cache' := if start in w.cache then w.cache else w.cache[start := {}];
    r := cache'[start];
    FinalFacts(ep, cache, start, w, cache');
  }

  // ---------------------------------------------------------------------
  // Proof of the walk

  lemma InitInv(ep: Endpoint, cache0: Cache, start: string)
    ensures Inv(ep, cache0, start, Walk([start], {}, cache0))
  {
    Paths.ReachesSelf(Children(ep, cache0), start);
  }

  /** What the invariant says about the name about to be popped. */
  ghost predicate PopFacts(ep: Endpoint, cache0: Cache, start: string, w: Walk)
    requires |w.stack| > 0
  {
    var cat := w.stack[|w.stack| - 1];
    && (cat == start ==> w.visited == {} && w.cache == cache0)
    && (cat !in w.cache ==> cat !in cache0)
    && (cat in w.cache && cat !in cache0 ==>
          cat != start && cat in w.visited && Ask(ep.instanceAsk, cat) == Yes && w.cache[cat] == Text.Chars(cat))
    && (cat in cache0 && cat != start ==> cat in w.cache && w.cache[cat] == cache0[cat])
  }

  lemma PopFactsHold(ep: Endpoint, cache0: Cache, start: string, w: Walk)
    requires |w.stack| > 0 && Shape(ep, cache0, start, w) && Framed(ep, cache0, start, w)
    ensures PopFacts(ep, cache0, start, w)
  {
  }

  /** The names one iteration pushes are the unvisited children of the
      popped name. */
  lemma PushesChildren(ep: Endpoint, cache0: Cache, start: string, w: Walk)
    requires |w.stack| > 0 && PopFacts(ep, cache0, start, w)
    ensures var cat := w.stack[|w.stack| - 1]; var w' := Visit(ep, start, w);
      && w'.visited == w.visited + {cat}
      && w'.stack == w.stack[..|w.stack| - 1] + Unvisited(Children(ep, cache0)(cat), w.visited + {cat})
  {
    var cat := w.stack[|w.stack| - 1];
    if cat !in w.cache && Ask(ep.instanceAsk, cat) != Yes {
      match Select(ep.subcats, cat)
      case Rows(ls) =>
      case Failed => assert Unvisited([], w.visited + {cat}) == [];
    } else {
      assert w.stack[..|w.stack| - 1] + [] == w.stack[..|w.stack| - 1];
    }
  }

  /** Each normalised sub-category label lies in the universe. */
  lemma NamesInUniverse(ep: Endpoint, start: string, cat: string)
    ensures forall x :: x in Names(Bound(Select(ep.subcats, cat))) ==> x in Universe(ep, start)
  {
    var ls := Bound(Select(ep.subcats, cat));
    SelectBound(ep.subcats, cat);
    forall x | x in Names(ls)
      ensures x in Universe(ep, start)
    {
      var k :| 0 <= k < |ls| && Names(ls)[k] == x;
      assert ls[k] in BoundLabels(ep.subcats);
    }
  }

  lemma VisitShape(ep: Endpoint, cache0: Cache, start: string, w: Walk)
    requires |w.stack| > 0 && Shape(ep, cache0, start, w) && Framed(ep, cache0, start, w)
    ensures Shape(ep, cache0, start, Visit(ep, start, w))
  {
    var cat := w.stack[|w.stack| - 1];
    PopFactsHold(ep, cache0, start, w);
    PushesChildren(ep, cache0, start, w);
    NamesInUniverse(ep, start, cat);
    if w.visited == {} {
      assert cat == start;
    }
  }

  lemma VisitFramed(ep: Endpoint, cache0: Cache, start: string, w: Walk)
    requires |w.stack| > 0 && Shape(ep, cache0, start, w) && Framed(ep, cache0, start, w)
    ensures Framed(ep, cache0, start, Visit(ep, start, w))
  {
    PopFactsHold(ep, cache0, start, w);
    VisitKeeps(ep, cache0, start, w);
    VisitAdds(ep, cache0, start, w);
  }

  /** Old entries other than the start's survive an iteration unchanged. */
  lemma VisitKeeps(ep: Endpoint, cache0: Cache, start: string, w: Walk)
    requires |w.stack| > 0 && PopFacts(ep, cache0, start, w)
    requires forall k :: k in cache0 && k != start ==> k in w.cache && w.cache[k] == cache0[k]
    ensures var c := Visit(ep, start, w).cache;
      forall k :: k in cache0 && k != start ==> k in c && c[k] == cache0[k]
  {
  }

  /** An iteration adds, besides the start's, only the entry of an instance. */
  lemma VisitAdds(ep: Endpoint, cache0: Cache, start: string, w: Walk)
    requires |w.stack| > 0 && PopFacts(ep, cache0, start, w)
    requires forall k :: k in w.cache && k !in cache0 && k != start ==>
      w.cache[k] == Text.Chars(k) && Ask(ep.instanceAsk, k) == Yes && k in w.visited
    ensures var w' := Visit(ep, start, w);
      forall k :: k in w'.cache && k !in cache0 && k != start ==>
        w'.cache[k] == Text.Chars(k) && Ask(ep.instanceAsk, k) == Yes && k in w'.visited
  {
    var cat := w.stack[|w.stack| - 1];
    var c := Visit(ep, start, w).cache;
    if cat !in w.cache && Ask(ep.instanceAsk, cat) != Yes {
      assert c.Keys <= w.cache.Keys + {start};
    }
  }

  /** Outside the wiping first iteration, an iteration adds to the start's
      entry a gain that the popped name supplies, and at least its base on
      its first visit. */
  lemma VisitGain(ep: Endpoint, cache0: Cache, start: string, w: Walk) returns (g: set<string>)
    requires |w.stack| > 0 && PopFacts(ep, cache0, start, w)
    requires !(WipesStart(ep, cache0, start) && w.visited == {})
    ensures var cat := w.stack[|w.stack| - 1];
      && Entry(Visit(ep, start, w).cache, start) == Entry(w.cache, start) + g
      && g <= Supplies(ep, cache0, cat)
      && (cat !in w.visited ==> Base(ep, cache0, cat) <= g)
  {
    var cat := w.stack[|w.stack| - 1];
    if cat in w.cache {
      g := w.cache[cat];
    } else if Ask(ep.instanceAsk, cat) == Yes {
      g := if cat == start then Text.Chars(cat) + {cat} else {cat};
      if cat != start {
        assert Entry(w.cache[cat := Text.Chars(cat)], start) == Entry(w.cache, start);
      }
    } else {
      g := Text.Elems(Bound(Select(ep.members, cat)));
    }
  }

  lemma VisitStartCases(ep: Endpoint, cache0: Cache, start: string, w: Walk)
    requires |w.stack| > 0 && Shape(ep, cache0, start, w) && StartCases(ep, cache0, start, w)
    ensures StartCases(ep, cache0, start, Visit(ep, start, w))
  {
    if w.visited == {} {
      var w' := Visit(ep, start, w);
      if start in cache0 {
        assert cache0[start] + cache0[start] == cache0[start];
        assert w'.cache == cache0;
      } else if WipesStart(ep, cache0, start) {
        var ls := Bound(Select(ep.members, start));
        assert w'.cache == cache0;
      }
    }
  }

  lemma VisitReachedClosed(ep: Endpoint, cache0: Cache, start: string, w: Walk)
    requires |w.stack| > 0 && Shape(ep, cache0, start, w) && Framed(ep, cache0, start, w)
    requires Reached(ep, cache0, start, w) && Closed(ep, cache0, w)
    ensures Reached(ep, cache0, start, Visit(ep, start, w)) && Closed(ep, cache0, Visit(ep, start, w))
  {
    var cat := w.stack[|w.stack| - 1];
    var rest := w.stack[..|w.stack| - 1];
    PopFactsHold(ep, cache0, start, w);
    PushesChildren(ep, cache0, start, w);
    assert w.stack == rest + [cat];
    PushStep(Children(ep, cache0), start, rest, cat, w.visited);
  }

  /** Popping a name, marking it visited and pushing its unvisited
      successors keeps both walk invariants. */
  lemma PushStep(succ: string -> seq<string>, start: string, rest: seq<string>, cat: string, visited: set<string>)
    requires ReachedFrom(succ, start, rest + [cat], visited) && ClosedUnder(succ, rest + [cat], visited)
    ensures var v := visited + {cat}; var s := rest + Unvisited(succ(cat), v);
      ReachedFrom(succ, start, s, v) && ClosedUnder(succ, s, v)
  {
    assert cat in rest + [cat];
    forall d | d in succ(cat)
      ensures Paths.Reaches(succ, start, d)
    {
      Paths.ReachesStep(succ, start, cat, d);
    }
    forall c | c in rest
      ensures c in rest + [cat]
    {
    }
  }

  lemma VisitSoundComplete(ep: Endpoint, cache0: Cache, start: string, w: Walk)
    requires |w.stack| > 0 && Shape(ep, cache0, start, w) && Framed(ep, cache0, start, w)
    requires StartCases(ep, cache0, start, w)
    requires Sound(ep, cache0, start, w) && Complete(ep, cache0, start, w)
    ensures Sound(ep, cache0, start, Visit(ep, start, w)) && Complete(ep, cache0, start, Visit(ep, start, w))
  {
    var cat := w.stack[|w.stack| - 1];
    var w' := Visit(ep, start, w);
    if WipesStart(ep, cache0, start) && w.visited == {} {
      VisitStartCases(ep, cache0, start, w);
      assert w'.cache == cache0;
    } else {
      PopFactsHold(ep, cache0, start, w);
      var g := VisitGain(ep, cache0, start, w);
      assert w'.visited == w.visited + {cat};
    }
  }

  /** One iteration keeps the invariant and lowers the loop's measure. */
  lemma VisitStep(ep: Endpoint, cache0: Cache, start: string, w: Walk)
    requires |w.stack| > 0 && Inv(ep, cache0, start, w)
    ensures Inv(ep, cache0, start, Visit(ep, start, w))
    ensures Smaller(Universe(ep, start), w, Visit(ep, start, w))
  {
    VisitInv(ep, cache0, start, w);
    PopFactsHold(ep, cache0, start, w);
    PushesChildren(ep, cache0, start, w);
    var cat := w.stack[|w.stack| - 1];
    VisitDecreases(Universe(ep, start), w, Visit(ep, start, w), Unvisited(Children(ep, cache0)(cat), w.visited + {cat}));
  }

  lemma VisitInv(ep: Endpoint, cache0: Cache, start: string, w: Walk)
    requires |w.stack| > 0 && Inv(ep, cache0, start, w)
    ensures Inv(ep, cache0, start, Visit(ep, start, w))
  {
    VisitShape(ep, cache0, start, w);
    VisitFramed(ep, cache0, start, w);
    VisitStartCases(ep, cache0, start, w);
    VisitReachedClosed(ep, cache0, start, w);
    VisitSoundComplete(ep, cache0, start, w);
  }

  lemma {:induction false} VisitedCountAppend(s: seq<string>, t: seq<string>, v: set<string>)
    ensures VisitedCount(s + t, v) == VisitedCount(s, v) + VisitedCount(t, v)
    decreases |t|
  {
    if |t| > 0 {
      var t0 := t[..|t| - 1];
      assert (s + t)[..|s + t| - 1] == s + t0;
      VisitedCountAppend(s, t0, v);
    } else {
      assert s + t == s;
    }
  }

  lemma {:induction false} VisitedCountNone(s: seq<string>, v: set<string>)
    requires forall x :: x in s ==> x !in v
    ensures VisitedCount(s, v) == 0
  {
    if |s| > 0 {
      VisitedCountNone(s[..|s| - 1], v);
    }
  }

  /** The loop's measure, names of u not yet visited and then visited names
      on the stack, is lexicographically lower for w' than for w. */
  ghost predicate Smaller(u: set<string>, w: Walk, w': Walk) {
    || |u - w'.visited| < |u - w.visited|
    || (|u - w'.visited| == |u - w.visited| && VisitedCount(w'.stack, w'.visited) < VisitedCount(w.stack, w.visited))
  }

  /** An iteration either visits a new name of the universe, or pops an
      already visited one and pushes only unvisited names. */
  lemma VisitDecreases(u: set<string>, w: Walk, w': Walk, pushed: seq<string>)
    requires |w.stack| > 0 && w.stack[|w.stack| - 1] in u
    requires w'.visited == w.visited + {w.stack[|w.stack| - 1]}
    requires w'.stack == w.stack[..|w.stack| - 1] + pushed
    requires forall x :: x in pushed ==> x !in w'.visited
    ensures Smaller(u, w, w')
  {
    var rest := w.stack[..|w.stack| - 1];
    assert w.stack == rest + [w.stack[|w.stack| - 1]];
    MeasureStep(u, rest, w.stack[|w.stack| - 1], w.visited, pushed);
  }

  lemma MeasureStep(u: set<string>, rest: seq<string>, cat: string, visited: set<string>, pushed: seq<string>)
    requires cat in u
    requires forall x :: x in pushed ==> x !in visited + {cat}
    ensures var v := visited + {cat};
      || |u - v| < |u - visited|
      || (|u - v| == |u - visited| && VisitedCount(rest + pushed, v) < VisitedCount(rest + [cat], visited))
  {
    if cat in visited {
      assert visited + {cat} == visited;
      assert (rest + [cat])[..|rest|] == rest;
      VisitedCountAppend(rest, pushed, visited);
      VisitedCountNone(pushed, visited);
    } else {
      assert u - visited == (u - (visited + {cat})) + {cat};
    }
  }

  /** What the invariant says once the stack is empty. */
  lemma FinalFacts(ep: Endpoint, cache0: Cache, start: string, w: Walk, cache': Cache)
    requires Inv(ep, cache0, start, w) && w.stack == []
    requires cache' == (if start in w.cache then w.cache else w.cache[start := {}])
    ensures start in cache' && cache'[start] == Entry(w.cache, start)
    ensures start in cache0 ==> cache' == cache0
    ensures forall k :: k in cache0 ==> k in cache' && (k != start ==> cache'[k] == cache0[k])
    ensures forall k :: k in cache' && k !in cache0 && k != start ==>
      cache'[k] == Text.Chars(k) && Ask(ep.instanceAsk, k) == Yes && Paths.Reaches(Children(ep, cache0), start, k)
    ensures start !in cache0 && Ask(ep.instanceAsk, start) == Yes ==> cache'[start] == Text.Chars(start) + {start}
    ensures WipesStart(ep, cache0, start) ==> cache'[start] == {} && cache' == cache0[start := {}]
    ensures forall x :: x in cache'[start] ==>
      exists c :: Paths.Reaches(Children(ep, cache0), start, c) && x in Supplies(ep, cache0, c)
    ensures !WipesStart(ep, cache0, start) ==>
      forall c, x :: Paths.Reaches(Children(ep, cache0), start, c) && x in Base(ep, cache0, c) ==> x in cache'[start]
  {
    var succ := Children(ep, cache0);
    assert start in w.visited;
    forall c | Paths.Reaches(succ, start, c)
      ensures c in w.visited
    {
      Paths.ClosedReach(succ, w.visited, start, c);
    }
    if start in cache0 {
      Paths.ReachesSelf(succ, start);
    }
  }
}

=== FILE: ooo_reader.dfy ===
/** The puzzle-file reader: each line of an odd-one-out puzzle file is split
    on tab, comma and newline, empty pieces are dropped, and the resulting
    token list is laid out as [category, odd one out, member1 .. member4]. */
module OooReader {
  import opened Outcomes

  /** The character class [\t,\n] the reader splits on. */
  predicate IsSeparator(c: char) {
    c == '\t' || c == ',' || c == '\n'
  }

  /** A string with no separator character in it. */
  predicate Clean(w: string) {
    forall i :: 0 <= i < |w| ==> !IsSeparator(w[i])
  }

  /** A token as the reader produces it: non-empty and separator-free. */
  predicate IsToken(w: string) {
    |w| > 0 && Clean(w)
  }

  /** Length of the leading run of non-separator characters of s. */
  function RunLength(s: string): (k: nat)
    ensures k <= |s|
    ensures Clean(s[..k])
    ensures k == |s| || IsSeparator(s[k])
  {
    if |s| == 0 || IsSeparator(s[0]) then 0
    else
      var k := RunLength(s[1..]);
      assert s[..k + 1] == [s[0]] + s[1..][..k];
      k + 1
  }

  /** filter(None, re.split('[\t,\n]', line)): the maximal separator-free
      runs of the line, in order. */
  function Tokenize(line: string): (tokens: seq<string>)
    ensures forall i :: 0 <= i < |tokens| ==> IsToken(tokens[i])
    decreases |line|
  {
    if |line| == 0 then []
    else if IsSeparator(line[0]) then Tokenize(line[1..])
    else
      var k := RunLength(line);
      [line[..k]] + Tokenize(line[k..])
  }

  /** The line with every separator character deleted. */
  function RemoveSeparators(s: string): string {
    if |s| == 0 then ""
    else (if IsSeparator(s[0]) then "" else [s[0]]) + RemoveSeparators(s[1..])
  }

  function Concat(ws: seq<string>): string {
    if |ws| == 0 then "" else ws[0] + Concat(ws[1..])
  }

  lemma {:induction false} RemoveSeparatorsAppend(a: string, b: string)
    ensures RemoveSeparators(a + b) == RemoveSeparators(a) + RemoveSeparators(b)
  {
    if |a| > 0 {
      assert (a + b)[1..] == a[1..] + b;
      RemoveSeparatorsAppend(a[1..], b);
    } else {
      assert a + b == b;
    }
  }

  lemma {:induction false} RemoveSeparatorsClean(w: string)
    requires Clean(w)
    ensures RemoveSeparators(w) == w
  {
    if |w| > 0 {
      RemoveSeparatorsClean(w[1..]);
      assert [w[0]] + w[1..] == w;
    }
  }

  /** Concatenating the tokens gives back the line with its separators deleted:
      no non-separator character is lost, none is added, and order is kept. */
  lemma {:induction false} TokensCoverLine(line: string)
    ensures Concat(Tokenize(line)) == RemoveSeparators(line)
    decreases |line|
  {
    if |line| > 0 {
      if IsSeparator(line[0]) {
        TokensCoverLine(line[1..]);
      } else {
        var k := RunLength(line);
        TokensCoverLine(line[k..]);
        assert line == line[..k] + line[k..];
        RemoveSeparatorsAppend(line[..k], line[k..]);
        RemoveSeparatorsClean(line[..k]);
        var ts := Tokenize(line);
        assert ts[0] == line[..k] && ts[1..] == Tokenize(line[k..]);
      }
    }
  }

  /** The leading run is unaffected by what follows a separator. */
  lemma {:induction false} RunLengthStops(a: string, c: char, b: string)
    requires IsSeparator(c)
    ensures RunLength(a + [c] + b) == RunLength(a)
  {
    if |a| > 0 && !IsSeparator(a[0]) {
      assert (a + [c] + b)[1..] == a[1..] + [c] + b;
      RunLengthStops(a[1..], c, b);
    }
  }

  /** A separator cuts the line in two: the tokens of a + [c] + b are those of
      a followed by those of b. With TokenizeWord and Tokenize("") == [] this
      pins Tokenize down as the maximal-run splitting. */
  lemma {:induction false} TokenizeAround(a: string, c: char, b: string)
    requires IsSeparator(c)
    ensures Tokenize(a + [c] + b) == Tokenize(a) + Tokenize(b)
    decreases |a|
  {
    var s := a + [c] + b;
    if |a| == 0 {
      assert s == [c] + b && s[1..] == b;
    } else if IsSeparator(a[0]) {
      assert s[1..] == a[1..] + [c] + b;
      TokenizeAround(a[1..], c, b);
    } else {
      var k := RunLength(a);
      RunLengthStops(a, c, b);
      assert s[..k] == a[..k];
      assert s[k..] == a[k..] + [c] + b;
      TokenizeAround(a[k..], c, b);
    }
  }

  /** A separator-free non-empty string is a single token. */
  lemma TokenizeWord(w: string)
    requires IsToken(w)
    ensures Tokenize(w) == [w]
  {
    var k := RunLength(w);
    assert w[..k] == w && w[k..] == "";
  }

  /** Rejoining tokens with commas and splitting again is the identity. */
  function JoinWithCommas(ts: seq<string>): string {
    if |ts| == 0 then "" else if |ts| == 1 then ts[0] else ts[0] + [','] + JoinWithCommas(ts[1..])
  }

  lemma {:induction false} TokenizeJoin(ts: seq<string>)
    requires forall i :: 0 <= i < |ts| ==> IsToken(ts[i])
    ensures Tokenize(JoinWithCommas(ts)) == ts
  {
    if |ts| == 1 {
      TokenizeWord(ts[0]);
    } else if |ts| > 1 {
      TokenizeJoin(ts[1..]);
      TokenizeWord(ts[0]);
      TokenizeAround(ts[0], ',', JoinWithCommas(ts[1..]));
      assert [ts[0]] + ts[1..] == ts;
    }
  }

  /** The documented layout of one puzzle line. */
  datatype PuzzleLine = PuzzleLine(category: string, oddOne: string, members: seq<string>) {
    /** puzzle_list[1:]: the odd one followed by the members. */
    function Words(): seq<string> {
      [oddOne] + members
    }
  }

  /** The indexing the reader performs on each token list: element 0 is the
      category, element 1 the odd one, the rest the members. A list with fewer
      than two tokens raises IndexError. */
  function PuzzleFields(tokens: seq<string>): (r: Result<PuzzleLine>)
    ensures r.Ok? <==> |tokens| >= 2
    ensures r.Err? ==> r.error == IndexError
    ensures r.Ok? ==> [r.value.category] + r.value.Words() == tokens
  {
    if |tokens| == 0 then Err(IndexError)
    else if |tokens| == 1 then Err(IndexError)
    else
      assert tokens == [tokens[0], tokens[1]] + tokens[2..];
      Ok(PuzzleLine(tokens[0], tokens[1], tokens[2..]))
  }

  /** The reader's main loop: one token list per line, in file order; the
      first line with fewer than two tokens aborts the whole read. */
  function ReadPuzzles(lines: seq<string>): (r: Result<seq<seq<string>>>)
    ensures r.Ok? <==> forall i :: 0 <= i < |lines| ==> |Tokenize(lines[i])| >= 2
    ensures r.Err? ==> r.error == IndexError
    ensures r.Ok? ==> |r.value| == |lines|
    ensures r.Ok? ==> forall i :: 0 <= i < |lines| ==> r.value[i] == Tokenize(lines[i])
  {
    if |lines| == 0 then Ok([])
    else
      var tokens := Tokenize(lines[0]);
      var _ :- PuzzleFields(tokens);
      var rest :- ReadPuzzles(lines[1..]);
      Ok([tokens] + rest)
  }
}

=== FILE: outcomes.dfy ===
/** Results of operations that can raise. The modelled Python code signals
    failure by raising built-in exceptions; each one the core can raise is a
    constructor of PyError. */
module Outcomes {

  /** The Python exceptions the modelled code lets escape. */
  datatype PyError =
    | ValueError          // tuple unpacking of a row with the wrong field count
    | IndexError          // indexing past the end of a list
    | KeyError            // dict.pop of a key that is absent
    | UnboundLocalError   // reading a loop variable that was never bound

  datatype Result<+T> = Ok(value: T) | Err(error: PyError) {
    predicate IsFailure() {
      Err?
    }

    function PropagateFailure<U>(): Result<U>
      requires Err?
    {
      Err(error)
    }

    function Extract(): T
      requires Ok?
    {
      value
    }
  }

  datatype Option<+T> = None | Some(value: T)
}

=== FILE: paths.dfy ===
/** Reachability in a directed graph given by its successor lists. Both
    backends walk such graphs: sub-category links downward, parent links
    upward. */
module Paths {

  /** p is a walk: each element is a successor of the one before. */
  ghost predicate IsPath(succ: string -> seq<string>, p: seq<string>) {
    |p| >= 1 && forall i :: 0 <= i < |p| - 1 ==> p[i + 1] in succ(p[i])
  }

  /** b is reached from a in zero or more steps. */
  ghost predicate Reaches(succ: string -> seq<string>, a: string, b: string) {
    exists p :: IsPath(succ, p) && p[0] == a && p[|p| - 1] == b
  }

  lemma ReachesSelf(succ: string -> seq<string>, a: string)
    ensures Reaches(succ, a, a)
  {
    assert IsPath(succ, [a]);
  }

  lemma ReachesStep(succ: string -> seq<string>, a: string, b: string, c: string)
    requires Reaches(succ, a, b)
    requires c in succ(b)
    ensures Reaches(succ, a, c)
  {
    var p :| IsPath(succ, p) && p[0] == a && p[|p| - 1] == b;
    var q := p + [c];
    assert forall i :: 0 <= i < |p| ==> q[i] == p[i];
    assert IsPath(succ, q);
  }

  /** A set closed under the successor lists holds everything reached from
      any of its members. */
  lemma ClosedReach(succ: string -> seq<string>, s: set<string>, a: string, b: string)
    requires a in s
    requires forall c, d :: c in s && d in succ(c) ==> d in s
    requires Reaches(succ, a, b)
    ensures b in s
  {
    var p :| IsPath(succ, p) && p[0] == a && p[|p| - 1] == b;
    var i := 0;
    while i < |p| - 1
      invariant 0 <= i < |p| && p[i] in s
    {
      i := i + 1;
    }
  }
}

=== FILE: sparql.dfy ===
/** The DBpedia SPARQL service as finite data. Each query the taxonomy issues
    is looked up by the label it is about; a label the data does not mention
    has no bindings (or a false ASK), and a query can fail outright (network
    error, malformed reply), which the taxonomy catches. */
module Sparql {

  /** An ASK query's answer: is_instance and is_category return None when the
      query fails, which the callers treat like false. */
  datatype Verdict = Yes | No | Unanswered

  /** A SELECT ?label query's answer: the bindings in reply order, or a failure. */
  datatype Reply = Rows(labels: seq<string>) | Failed

  datatype Endpoint = Endpoint(
    categoryAsk: map<string, Verdict>,   // ASK: the label is a skos:Concept
    instanceAsk: map<string, Verdict>,   // ASK: the label has a dct:subject
    broader: map<string, Reply>,         // labels of the skos:broader concepts of a label
    subjects: map<string, Reply>,        // labels of the dct:subject categories of a label
    members: map<string, Reply>,         // labels of the resources whose dct:subject is Category:c
    subcats: map<string, Reply>)         // labels of the concepts whose skos:broader is Category:c (its sub-categories)

  function Ask(m: map<string, Verdict>, l: string): Verdict {
    if l in m then m[l] else No
  }

  function Select(m: map<string, Reply>, l: string): Reply {
    if l in m then m[l] else Rows([])
  }

  /** The labels a reply binds, none when it failed. */
  function Bound(r: Reply): seq<string> {
    if r.Rows? then r.labels else []
  }

  /** Every label some SELECT reply of the map binds. */
  ghost function BoundLabels(m: map<string, Reply>): set<string> {
    set k, l | k in m && l in Bound(m[k]) :: l
  }

  lemma SelectBound(m: map<string, Reply>, k: string)
    ensures forall l :: l in Bound(Select(m, k)) ==> l in BoundLabels(m)
  {
  }
}

=== FILE: text.dfy ===
/** String helpers with the semantics of the Python built-ins the core uses:
    str.split with an explicit separator, str.strip of one character,
    str.replace of one character, set() of a string and list.remove. */
module Text {

  /** str.count(c): the number of occurrences of c in s. */
  function Count(s: string, c: char): nat {
    if |s| == 0 then 0 else (if s[0] == c then 1 else 0) + Count(s[1..], c)
  }

  /** str.split(sep): the pieces between occurrences of sep, empty pieces kept. */
  function Split(s: string, sep: char): (r: seq<string>)
    ensures |r| == Count(s, sep) + 1
    ensures forall i :: 0 <= i < |r| ==> sep !in r[i]
  {
    if |s| == 0 then [""]
    else
      var rest := Split(s[1..], sep);
      assert s == [s[0]] + s[1..];
      if s[0] == sep then [""] + rest
      else [[s[0]] + rest[0]] + rest[1..]
  }

  /** sep.join(parts), the inverse of Split. */
  function Join(parts: seq<string>, sep: char): string
    requires |parts| >= 1
  {
    if |parts| == 1 then parts[0] else parts[0] + [sep] + Join(parts[1..], sep)
  }

  lemma {:induction false} JoinSplit(s: string, sep: char)
    ensures Join(Split(s, sep), sep) == s
  {
    if |s| > 0 {
      var rest := Split(s[1..], sep);
      var p := Split(s, sep);
      JoinSplit(s[1..], sep);
      assert s == [s[0]] + s[1..];
      if s[0] == sep {
        assert p == [""] + rest;
        assert p[1..] == rest;
        assert Join(p, sep) == "" + [sep] + Join(rest, sep);
      } else if |rest| == 1 {
        assert p == [[s[0]] + rest[0]];
        assert Join(rest, sep) == rest[0];
      } else {
        assert p == [[s[0]] + rest[0]] + rest[1..];
        assert p[1..] == rest[1..];
        var tail := Join(rest[1..], sep);
        assert Join(rest, sep) == rest[0] + [sep] + tail;
        assert Join(p, sep) == ([s[0]] + rest[0]) + [sep] + tail;
        assert ([s[0]] + rest[0]) + [sep] + tail == [s[0]] + (rest[0] + [sep] + tail);
      }
    }
  }

  lemma {:induction false} SplitJoin(parts: seq<string>, sep: char)
    requires |parts| >= 1
    requires forall i :: 0 <= i < |parts| ==> sep !in parts[i]
    ensures Split(Join(parts, sep), sep) == parts
  {
    if |parts| == 1 {
      SplitNoSep(parts[0], sep);
    } else {
      SplitJoin(parts[1..], sep);
      SplitPrefix(parts[0], Join(parts[1..], sep), sep);
      assert [parts[0]] + parts[1..] == parts;
    }
  }

  /** A string without the separator is one piece. */
  lemma {:induction false} SplitNoSep(w: string, sep: char)
    requires sep !in w
    ensures Split(w, sep) == [w]
  {
    if |w| > 0 {
      SplitNoSep(w[1..], sep);
      assert [w[0]] + w[1..] == w;
    }
  }

  /** Splitting w + sep + t, where w has no separator, yields w then the pieces of t. */
  lemma {:induction false} SplitPrefix(w: string, t: string, sep: char)
    requires sep !in w
    ensures Split(w + [sep] + t, sep) == [w] + Split(t, sep)
  {
    if |w| == 0 {
      assert w + [sep] + t == [sep] + t;
      assert ([sep] + t)[1..] == t;
    } else {
      SplitPrefix(w[1..], t, sep);
      assert (w + [sep] + t)[1..] == w[1..] + [sep] + t;
      assert [w[0]] + w[1..] == w;
    }
  }

  /** True when s neither begins nor ends with c. */
  predicate Trimmed(s: string, c: char) {
    |s| == 0 || (s[0] != c && s[|s| - 1] != c)
  }

  /** str.strip(c): removes every leading and trailing occurrence of c. */
  function Strip(s: string, c: char): (r: string)
    ensures |r| <= |s|
  {
    StripStartSpec(s, c);
    StripEndSpec(StripStart(s, c), c);
    StripEnd(StripStart(s, c), c)
  }

  /** Strip removes only copies of c, only at the two ends, and leaves neither
      end equal to c. */
  lemma StripSpec(s: string, c: char)
    ensures Trimmed(Strip(s, c), c)
    ensures exists i, j :: 0 <= i <= j <= |s| && Strip(s, c) == s[i..j]
                        && (forall k :: 0 <= k < i ==> s[k] == c)
                        && (forall k :: j <= k < |s| ==> s[k] == c)
  {
    var front := StripStart(s, c);
    StripStartSpec(s, c);
    StripEndSpec(front, c);
    var r := StripEnd(front, c);
    var i := |s| - |front|;
    assert r == s[i..i + |r|];
  }

  /** lstrip(c). */
  function StripStart(s: string, c: char): string {
    if |s| > 0 && s[0] == c then StripStart(s[1..], c) else s
  }

  lemma {:induction false} StripStartSpec(s: string, c: char)
    ensures var r := StripStart(s, c);
      && |r| <= |s| && r == s[|s| - |r|..]
      && (forall k :: 0 <= k < |s| - |r| ==> s[k] == c)
      && (|r| == 0 || r[0] != c)
  {
    if |s| > 0 && s[0] == c {
      StripStartSpec(s[1..], c);
    }
  }

  /** rstrip(c). */
  function StripEnd(s: string, c: char): string {
    if |s| > 0 && s[|s| - 1] == c then StripEnd(s[..|s| - 1], c) else s
  }

  lemma {:induction false} StripEndSpec(s: string, c: char)
    ensures var r := StripEnd(s, c);
      && |r| <= |s| && r == s[..|r|]
      && (forall k :: |r| <= k < |s| ==> s[k] == c)
      && (|r| == 0 || r[|r| - 1] != c)
      && ((|s| == 0 || s[0] != c) ==> Trimmed(r, c))
  {
    if |s| > 0 && s[|s| - 1] == c {
      StripEndSpec(s[..|s| - 1], c);
    }
  }

  /** str.replace(from, to) for single characters. */
  function Replace(s: string, from: char, to: char): (r: string)
    ensures |r| == |s|
    ensures forall k :: 0 <= k < |s| ==> r[k] == (if s[k] == from then to else s[k])
  {
    seq(|s|, k requires 0 <= k < |s| => if s[k] == from then to else s[k])
  }

  /** set(s) in Python: the one-character strings occurring in s. */
  function Chars(s: string): (r: set<string>)
    ensures forall x :: x in r <==> |x| == 1 && x[0] in s
  {
    assert forall x :: |x| == 1 && x[0] in s ==> exists k :: 0 <= k < |s| && x == [s[k]] by {
      forall x | |x| == 1 && x[0] in s
        ensures exists k :: 0 <= k < |s| && x == [s[k]]
      {
        var k :| 0 <= k < |s| && s[k] == x[0];
        assert x == [s[k]];
      }
    }
    set k | 0 <= k < |s| :: [s[k]]
  }

  /** Index of the first occurrence of x in s. */
  function FirstIndex<T(==)>(s: seq<T>, x: T): (i: nat)
    requires x in s
    ensures i < |s| && s[i] == x && x !in s[..i]
  {
    if s[0] == x then 0 else FirstIndex(s[1..], x) + 1
  }

  /** Past a different head, the first occurrence moves back by one. */
  lemma FirstIndexTail<T>(s: seq<T>, xs: seq<T>)
    requires |s| > 0
    requires forall x :: x in xs ==> x in s[1..] && x != s[0]
    ensures forall x :: x in xs ==> FirstIndex(s, x) == FirstIndex(s[1..], x) + 1
  {
  }

  /** list.remove(x): drops the first occurrence of x. */
  function RemoveFirst<T(==)>(s: seq<T>, x: T): (r: seq<T>)
    requires x in s
    ensures |r| == |s| - 1
  {
    if s[0] == x then s[1..] else [s[0]] + RemoveFirst(s[1..], x)
  }

  /** list.remove(x) takes away exactly one copy of x. */
  lemma {:induction false} RemoveFirstCount<T>(s: seq<T>, x: T)
    requires x in s
    ensures multiset(RemoveFirst(s, x)) == multiset(s) - multiset{x}
  {
    assert s == [s[0]] + s[1..];
    if s[0] != x {
      RemoveFirstCount(s[1..], x);
    }
  }

  /** The occurrence list.remove drops is the first one. */
  lemma {:induction false} RemoveFirstAt<T>(s: seq<T>, x: T)
    requires x in s
    ensures var i := FirstIndex(s, x); RemoveFirst(s, x) == s[..i] + s[i + 1..]
  {
    if s[0] != x {
      var t := s[1..];
      var j := FirstIndex(t, x);
      RemoveFirstAt(t, x);
      assert FirstIndex(s, x) == j + 1;
      var a, b := t[..j], t[j + 1..];
      assert a == s[1..j + 1] && b == s[j + 2..];
      assert s[..j + 1] == [s[0]] + a;
      assert [s[0]] + (a + b) == ([s[0]] + a) + b;
    }
  }

  /** No element occurs twice. */
  predicate NoDups<T(==)>(s: seq<T>) {
    forall i, j :: 0 <= i < j < |s| ==> s[i] != s[j]
  }

  /** The elements of a sequence as a set. */
  function Elems<T>(s: seq<T>): set<T> {
    set x | x in s
  }

  /** A sequence without repeats has as many distinct elements as entries. */
  lemma {:induction false} DistinctCard<T>(s: seq<T>)
    requires NoDups(s)
    ensures |Elems(s)| == |s|
  {
    if |s| > 0 {
      var last := s[|s| - 1];
      var init := s[..|s| - 1];
      DistinctCard(init);
      assert Elems(s) == Elems(init) + {last};
      assert last !in init;
    }
  }

  /** A suffix of a sequence without repeats has none either. */
  lemma NoDupsSuffix<T>(a: seq<T>, b: seq<T>)
    requires NoDups(a + b)
    ensures NoDups(b)
  {
    assert forall i :: 0 <= i < |b| ==> b[i] == (a + b)[|a| + i];
  }

  /** A sequence without repeats drawn from `u` is no longer than `u` is large. */
  lemma DistinctBound<T>(s: seq<T>, u: set<T>)
    requires NoDups(s)
    requires forall x :: x in s ==> x in u
    ensures |s| <= |u|
  {
    DistinctCard(s);
    assert u == Elems(s) + (u - Elems(s));
  }
}

=== FILE: walk.dfy ===
/** The worklist walk of the local category graph, over an abstract expansion
    function, so that its proof does not depend on how the tables are read. */
module CategoryWalk {
  import opened Outcomes
  import Text
  import Paths

  /** What one expansion of a category yields: the titles of its 'page'
      members and of its 'subcat' members, each in dict insertion order. */
  datatype Expansion = Expansion(pages: seq<string>, subcats: seq<string>)

  /** The inner loop over a category's sub-categories: each title not yet in
      `names` is queued and recorded, in dict order, once. */
  function QueueNew(subs: seq<string>, names: seq<string>): (queued: seq<string>)
    ensures Text.NoDups(names) ==> Text.NoDups(names + queued)
    ensures forall x :: x in queued ==> x in subs && x !in names
    ensures forall x :: x in subs ==> x in names || x in queued
    ensures forall i, j :: 0 <= i < j < |queued| ==>
      Text.FirstIndex(subs, queued[i]) < Text.FirstIndex(subs, queued[j])
  {
    if |subs| == 0 then []
    else if subs[0] in names then
      var q := QueueNew(subs[1..], names);
      Text.FirstIndexTail(subs, q);
      q
    else
      var rest := QueueNew(subs[1..], names + [subs[0]]);
      assert names + [subs[0]] + rest == names + ([subs[0]] + rest);
      Text.FirstIndexTail(subs, rest);
      [subs[0]] + rest
  }

  /** The union of `leaves(c)` over the categories `cs`. */
  function UnionOver(leaves: string -> set<string>, cs: seq<string>): set<string> {
    if |cs| == 0 then {}
    else UnionOver(leaves, cs[..|cs| - 1]) + leaves(cs[|cs| - 1])
  }

  lemma {:induction false} UnionOverMembers(leaves: string -> set<string>, cs: seq<string>, t: string)
    ensures t in UnionOver(leaves, cs) <==> exists c :: c in cs && t in leaves(c)
  {
    if |cs| > 0 {
      var init := cs[..|cs| - 1];
      UnionOverMembers(leaves, init, t);
      assert cs == init + [cs[|cs| - 1]];
      assert forall c :: c in cs <==> c in init || c == cs[|cs| - 1];
    }
  }


  /** The stack walk of get_descendant_instances over an abstract expansion
      function: `expand` fails for every category or for none (`ok`), and
      when it succeeds it yields `leaves(c)` and `links(c)`, whose targets lie
      in the finite `universe`. A sub-category is queued only if it is not yet
      in `names`, and is appended to `names` when queued. */
  method Walk(expand: string -> Result<Expansion>, ok: bool,
              leaves: string -> set<string>, links: string -> seq<string>, ghost universe: set<string>,
              names0: seq<string>, node: string)
    returns (r: Result<set<string>>, names: seq<string>)
    requires forall c :: expand(c).Ok? <==> ok
    requires forall c :: expand(c).Err? ==> expand(c).error == ValueError
    requires forall c :: expand(c).Ok? ==> expand(c).value.subcats == links(c) && Text.Elems(expand(c).value.pages) == leaves(c)
    requires forall c, s :: s in links(c) ==> s in universe
    requires Text.NoDups(names0)
    ensures names0 <= names && Text.NoDups(names)
    ensures r.Ok? <==> ok
    ensures r.Err? ==> r.error == ValueError && names == names0
    ensures forall c :: c in names[|names0|..] ==> Paths.Reaches(links, node, c)
    ensures forall c :: c in names[|names0|..] ==>
      exists d :: (d == node || d in names[|names0|..]) && c in links(d)
    ensures r.Ok? ==> forall c, s :: (c == node || c in names[|names0|..]) && s in links(c) ==> s in names
    ensures r.Ok? ==> forall x :: x in r.value <==>
      exists c :: (c == node || c in names[|names0|..]) && x in leaves(c)
  {
    ghost var expanded: seq<string> := [];
    ghost var added: seq<string> := [];
    var descendants: set<string> := {};
    var stack := [node];
    names := names0;
    Paths.ReachesSelf(links, node);
    while |stack| != 0
      invariant names == names0 + added && Text.NoDups(names)
      invariant |expanded| > 0 ==> ok
      invariant |expanded| == 0 ==> added == [] && stack == [node]
      invariant forall x :: (x in expanded || x in stack) <==> (x == node || x in added)
      invariant forall x :: x in added ==> x in universe && Paths.Reaches(links, node, x)
      invariant forall x :: x in added ==> exists d :: (d == node || d in added) && x in links(d)
      invariant forall c, s :: c in expanded && s in links(c) ==> s in names
      invariant descendants == UnionOver(leaves, expanded)
      invariant |added| <= |universe|
      decreases |universe| - |added|, |stack|
    {
      var c := stack[|stack| - 1];
      ghost var before := stack;
      stack := stack[..|stack| - 1];
      var e := expand(c);
      if e.Err? {
        return Err(e.error), names0;
      }
      descendants := descendants + Text.Elems(e.value.pages);
      var queued := QueueNew(e.value.subcats, names);
      assert c == node || c in added by {
        assert c in before;
      }
      forall x | x in queued
        ensures Paths.Reaches(links, node, x)
      {
        Paths.ReachesStep(links, node, c, x);
      }
      LinkedStep(links, added, queued, c, node);
      GrowNames(names0, added, queued, universe);
      FrontierStep(expanded, before, c, queued, added, node);
      ClosureStep(links, expanded, names, c, queued);
      UnionOverSnoc(leaves, expanded, c);
      stack := stack + queued;
      names := names + queued;
      added := added + queued;
      expanded := expanded + [c];
    }
    assert added == names[|names0|..];
    forall x
      ensures x in descendants <==> exists c :: (c == node || c in added) && x in leaves(c)
    {
      UnionOverMembers(leaves, expanded, x);
    }
    r := Ok(descendants);
  }

  /** Appending the queued names keeps the list free of repeats and within the
      universe, so the names added by the walk stay bounded. */
  lemma GrowNames(names0: seq<string>, added: seq<string>, queued: seq<string>, universe: set<string>)
    requires Text.NoDups((names0 + added) + queued)
    requires forall x :: x in added + queued ==> x in universe
    ensures names0 + (added + queued) == (names0 + added) + queued
    ensures |added + queued| <= |universe|
  {
    assert names0 + (added + queued) == (names0 + added) + queued;
    Text.NoDupsSuffix(names0, added + queued);
    Text.DistinctBound(added + queued, universe);
  }

  /** Every added name is a sub-category of the start or of an added name;
      queueing sub-categories of such a `c` keeps that so. */
  lemma LinkedStep(links: string -> seq<string>, added: seq<string>, queued: seq<string>, c: string, node: string)
    requires forall x :: x in added ==> exists d :: (d == node || d in added) && x in links(d)
    requires c == node || c in added
    requires forall x :: x in queued ==> x in links(c)
    ensures forall x :: x in added + queued ==> exists d :: (d == node || d in added + queued) && x in links(d)
  {
    forall x | x in added + queued
      ensures exists d :: (d == node || d in added + queued) && x in links(d)
    {
      if x in added {
        var d :| (d == node || d in added) && x in links(d);
        assert d == node || d in added + queued;
      } else {
        assert c == node || c in added + queued;
      }
    }
  }

  /** Popping `c` to expand it and pushing the queued names keeps "expanded or
      on the stack" equal to "the start node or an added name". */
  lemma FrontierStep(expanded: seq<string>, before: seq<string>, c: string, queued: seq<string>,
                     added: seq<string>, node: string)
    requires |before| > 0 && before[|before| - 1] == c
    requires forall x :: (x in expanded || x in before) <==> (x == node || x in added)
    ensures forall x :: (x in expanded + [c] || x in before[..|before| - 1] + queued) <==>
      (x == node || x in added + queued)
  {
    assert before == before[..|before| - 1] + [c];
  }

  /** After expanding `c`, every sub-category of an expanded category is named. */
  lemma ClosureStep(links: string -> seq<string>, expanded: seq<string>, names: seq<string>, c: string,
                    queued: seq<string>)
    requires forall d, s :: d in expanded && s in links(d) ==> s in names
    requires forall s :: s in links(c) ==> s in names || s in queued
    ensures forall d, s :: d in expanded + [c] && s in links(d) ==> s in names + queued
  {
  }

  lemma UnionOverSnoc(leaves: string -> set<string>, cs: seq<string>, c: string)
    ensures UnionOver(leaves, cs + [c]) == UnionOver(leaves, cs) + leaves(c)
  {
    assert (cs + [c])[..|cs|] == cs;
  }
}

=== FILE: wiki_demo.dfy ===
/** Row helpers over the two tab-separated tables extracted from a Wikipedia
    dump: the categorylinks table (page id, category label, member type) and
    the page table (page id, namespace, title and four more fields). A file is
    its sequence of lines. */
module WikiDemo {
  import opened Outcomes
  import Text

  /** Member types of a categorylinks row, quoted as they appear in the dump. */
  const PageKind: string := "'page'"
  const SubcatKind: string := "'subcat'"
  const FileKind: string := "'file'"

  /** Field count of a page-table row. */
  const PageFields: nat := 7

  datatype Catlink = Catlink(pageId: string, category: string, kind: string)

  /** One categorylinks row: newlines are stripped from both ends, then the row
      must split into exactly three tab-separated fields (ValueError otherwise). */
  function ParseCatlink(line: string): (r: Result<Catlink>)
    ensures r.Err? ==> r.error == ValueError
  {
    var fields := CatlinkFields(line);
    if |fields| != 3 then Err(ValueError) else Ok(Catlink(fields[0], fields[1], fields[2]))
  }

  /** The tab-separated fields of a categorylinks row after stripping newlines. */
  function CatlinkFields(line: string): seq<string> {
    Text.Split(Text.Strip(line, '\n'), '\t')
  }

  /** A categorylinks row parses exactly when its stripped text holds two tabs,
      and then its three fields rejoined with tabs give back that text. */
  lemma ParseCatlinkSpec(line: string)
    ensures ParseCatlink(line).Ok? <==> Text.Count(Text.Strip(line, '\n'), '\t') == 2
    ensures ParseCatlink(line).Ok? ==>
      var row := ParseCatlink(line).value;
      Text.Join([row.pageId, row.category, row.kind], '\t') == Text.Strip(line, '\n')
  {
    var body := Text.Strip(line, '\n');
    var fields := CatlinkFields(line);
    assert |fields| == Text.Count(body, '\t') + 1;
    if |fields| == 3 {
      var row := ParseCatlink(line).value;
      assert [row.pageId, row.category, row.kind] == fields;
      Text.JoinSplit(body, '\t');
    }
  }

  datatype PageRow = PageRow(id: string, namespace: string, title: string)

  /** The tab-separated fields of a page-table row. */
  function PageFieldsOf(line: string): seq<string> {
    Text.Split(line, '\t')
  }

  /** One page-table row: it must split into exactly seven tab-separated fields
      (ValueError otherwise); the trailing newline stays in the last field. */
  function ParsePage(line: string): (r: Result<PageRow>)
    ensures r.Err? ==> r.error == ValueError
  {
    var fields := PageFieldsOf(line);
    if |fields| != PageFields then Err(ValueError) else Ok(PageRow(fields[0], fields[1], fields[2]))
  }

  /** A page row parses exactly when it holds six tabs; its id, namespace and
      title are then its first three fields. */
  lemma ParsePageSpec(line: string)
    ensures ParsePage(line).Ok? <==> Text.Count(line, '\t') == PageFields - 1
    ensures ParsePage(line).Ok? ==>
      var row := ParsePage(line).value;
      exists rest: seq<string> :: |rest| == PageFields - 3 &&
        Text.Join([row.id, row.namespace, row.title] + rest, '\t') == line
  {
    var fields := PageFieldsOf(line);
    assert |fields| == Text.Count(line, '\t') + 1;
    if |fields| == PageFields {
      var row := ParsePage(line).value;
      assert [row.id, row.namespace, row.title] + fields[3..] == fields;
      Text.JoinSplit(line, '\t');
    }
  }

  /** Every row of the categorylinks file parses. */
  predicate AllCatlinksParse(lines: seq<string>) {
    |lines| == 0 || (ParseCatlink(lines[0]).Ok? && AllCatlinksParse(lines[1..]))
  }

  /** Every row of the page file parses. */
  predicate AllPagesParse(lines: seq<string>) {
    |lines| == 0 || (ParsePage(lines[0]).Ok? && AllPagesParse(lines[1..]))
  }

  /** Parses every categorylinks row; the first malformed row fails the file. */
  function ParseCatlinks(lines: seq<string>): (r: Result<seq<Catlink>>)
    ensures r.Ok? <==> AllCatlinksParse(lines)
    ensures r.Err? ==> r.error == ValueError
    ensures r.Ok? ==> |r.value| == |lines|
  {
    if |lines| == 0 then Ok([])
    else
      var row :- ParseCatlink(lines[0]);
      var rest :- ParseCatlinks(lines[1..]);
      Ok([row] + rest)
  }

  /** Row i of the parsed file is what line i parses to. */
  lemma {:induction false} ParseCatlinksAt(lines: seq<string>, i: nat)
    requires ParseCatlinks(lines).Ok? && i < |lines|
    ensures ParseCatlink(lines[i]) == Ok(ParseCatlinks(lines).value[i])
  {
    if i > 0 {
      ParseCatlinksAt(lines[1..], i - 1);
      assert lines[1..][i - 1] == lines[i];
    }
  }

  /** The three id lists findPagesInCategory returns. */
  datatype CategoryMembers = CategoryMembers(pageIds: seq<string>, subcatIds: seq<string>, fileIds: seq<string>) {
    function Append(other: CategoryMembers): CategoryMembers {
      CategoryMembers(pageIds + other.pageIds, subcatIds + other.subcatIds, fileIds + other.fileIds)
    }

    function Size(): nat {
      |pageIds| + |subcatIds| + |fileIds|
    }
  }

  const NoMembers := CategoryMembers([], [], [])

  /** What one row contributes to the lists for `desired`: its id lands in the
      list of its member type when its category is `desired`, and nowhere else. */
  function Classify(row: Catlink, desired: string): (m: CategoryMembers)
    ensures m.Size() <= 1
    ensures m.Size() == 1 <==> row.category == desired && row.kind in {PageKind, SubcatKind, FileKind}
    ensures row.pageId in m.pageIds <==> row.category == desired && row.kind == PageKind
    ensures row.pageId in m.subcatIds <==> row.category == desired && row.kind == SubcatKind
    ensures row.pageId in m.fileIds <==> row.category == desired && row.kind == FileKind
  {
    if row.category != desired then NoMembers
    else if row.kind == PageKind then CategoryMembers([row.pageId], [], [])
    else if row.kind == SubcatKind then CategoryMembers([], [row.pageId], [])
    else if row.kind == FileKind then CategoryMembers([], [], [row.pageId])
    else NoMembers
  }

  /** The members of `desired` among parsed rows, in row order. */
  function MembersIn(rows: seq<Catlink>, desired: string): (m: CategoryMembers)
    ensures m.Size() <= |rows|
  {
    if |rows| == 0 then NoMembers
    else Classify(rows[0], desired).Append(MembersIn(rows[1..], desired))
  }

  /** findPagesInCategory: the ids of the members of `desired`, split by member
      type, in file order. Any malformed row aborts with ValueError. */
  function FindPagesInCategory(lines: seq<string>, desired: string): (r: Result<CategoryMembers>)
    ensures r.Ok? <==> AllCatlinksParse(lines)
    ensures r.Err? ==> r.error == ValueError
    ensures r.Ok? ==> r.value.Size() <= |lines|
  {
    var rows :- ParseCatlinks(lines);
    Ok(MembersIn(rows, desired))
  }

  /** Splitting the rows in two parts and appending the lists is the same as
      classifying them whole: ids keep row order and every matching row
      contributes its own id, so duplicate rows give duplicate ids. */
  lemma {:induction false} MembersInAppend(a: seq<Catlink>, b: seq<Catlink>, desired: string)
    ensures MembersIn(a + b, desired) == MembersIn(a, desired).Append(MembersIn(b, desired))
  {
    if |a| == 0 {
      assert a + b == b;
      var mb := MembersIn(b, desired);
      assert NoMembers.Append(mb) == mb;
    } else {
      assert (a + b)[1..] == a[1..] + b;
      assert (a + b)[0] == a[0];
      MembersInAppend(a[1..], b, desired);
      AppendAssoc(Classify(a[0], desired), MembersIn(a[1..], desired), MembersIn(b, desired));
    }
  }

  lemma AppendAssoc(x: CategoryMembers, y: CategoryMembers, z: CategoryMembers)
    ensures x.Append(y.Append(z)) == x.Append(y).Append(z)
  {
    assert x.pageIds + (y.pageIds + z.pageIds) == x.pageIds + y.pageIds + z.pageIds;
    assert x.subcatIds + (y.subcatIds + z.subcatIds) == x.subcatIds + y.subcatIds + z.subcatIds;
    assert x.fileIds + (y.fileIds + z.fileIds) == x.fileIds + y.fileIds + z.fileIds;
  }

  /** A one-row table yields exactly that row's classification. */
  lemma MembersInRow(row: Catlink, desired: string)
    ensures MembersIn([row], desired) == Classify(row, desired)
  {
    var c := Classify(row, desired);
    assert [row][1..] == [];
    assert c.Append(NoMembers) == c;
  }

  /** The ids one row contributes are its own, and only when the row has the
      list's member type. */
  lemma ClassifyFrom(row: Catlink, desired: string)
    ensures var c := Classify(row, desired);
      && (forall x :: x in c.pageIds ==> row == Catlink(x, desired, PageKind))
      && (forall x :: x in c.subcatIds ==> row == Catlink(x, desired, SubcatKind))
      && (forall x :: x in c.fileIds ==> row == Catlink(x, desired, FileKind))
  {
  }

  /** An id is in a list exactly when some row of category `desired` with the
      list's member type carries it. */
  lemma {:induction false} MembersFromRows(rows: seq<Catlink>, desired: string)
    ensures var m := MembersIn(rows, desired);
      && (forall x :: x in m.pageIds <==> Catlink(x, desired, PageKind) in rows)
      && (forall x :: x in m.subcatIds <==> Catlink(x, desired, SubcatKind) in rows)
      && (forall x :: x in m.fileIds <==> Catlink(x, desired, FileKind) in rows)
  {
    if |rows| > 0 {
      MembersFromRows(rows[1..], desired);
      ClassifyFrom(rows[0], desired);
      assert rows == [rows[0]] + rows[1..];
    }
  }

  /** An id is in one of the lists findPagesInCategory returns exactly when a
      row of the file has category `desired`, that id and the list's type. */
  lemma FindPagesInCategoryFromRows(lines: seq<string>, desired: string)
    requires FindPagesInCategory(lines, desired).Ok?
    ensures var m := FindPagesInCategory(lines, desired).value;
      && (forall x :: x in m.pageIds <==> RowIn(lines, Catlink(x, desired, PageKind)))
      && (forall x :: x in m.subcatIds <==> RowIn(lines, Catlink(x, desired, SubcatKind)))
      && (forall x :: x in m.fileIds <==> RowIn(lines, Catlink(x, desired, FileKind)))
  {
    var rows := ParseCatlinks(lines).value;
    MembersFromRows(rows, desired);
    forall x | x in rows
      ensures RowIn(lines, x)
    {
      var i :| 0 <= i < |rows| && rows[i] == x;
      ParseCatlinksAt(lines, i);
    }
    forall x | RowIn(lines, x)
      ensures x in rows
    {
      var i :| 0 <= i < |lines| && ParseCatlink(lines[i]) == Ok(x);
      ParseCatlinksAt(lines, i);
    }
  }

  /** Some line of the file parses to `row`. */
  ghost predicate RowIn(lines: seq<string>, row: Catlink) {
    exists i :: 0 <= i < |lines| && ParseCatlink(lines[i]) == Ok(row)
  }

  /** The value findPagesById stores for a title: [page_id, page_namespace]. */
  datatype PageRef = PageRef(id: string, namespace: string)

  /** The dict findPagesById builds, with its keys in insertion order, and what
      is left of the caller's id list after matched ids were removed. */
  datatype PageLookup = PageLookup(titles: seq<string>, entries: map<string, PageRef>, remaining: seq<string>)

  /** The shape of a Python dict: the key order lists every key exactly once. */
  predicate DictShape(d: PageLookup) {
    Text.NoDups(d.titles) && Text.Elems(d.titles) == d.entries.Keys
  }

  /** The effect of one page row: when its id is still in the list, its title
      is (re)bound to [id, namespace] and one occurrence of the id is removed. */
  function Absorb(acc: PageLookup, row: PageRow): (r: PageLookup)
    requires DictShape(acc)
    ensures DictShape(r)
  {
    if row.id in acc.remaining then
      assert forall i :: 0 <= i < |acc.titles| ==> acc.titles[i] in acc.entries;
      PageLookup(if row.title in acc.entries then acc.titles else acc.titles + [row.title],
                 acc.entries[row.title := PageRef(row.id, row.namespace)],
                 Text.RemoveFirst(acc.remaining, row.id))
    else acc
  }

  /** One row keeps the earlier keys in order, adds at most its own title and
      only when it consumes one occurrence of its id, and otherwise leaves
      every entry as it was. */
  lemma AbsorbSpec(acc: PageLookup, row: PageRow)
    requires DictShape(acc)
    ensures var r := Absorb(acc, row);
      && acc.titles <= r.titles
      && acc.entries.Keys <= r.entries.Keys
      && |r.titles| - |acc.titles| <= |acc.remaining| - |r.remaining|
      && (forall x :: multiset(r.remaining)[x] == Drop(multiset(acc.remaining)[x], if x == row.id then 1 else 0))
      && (forall t :: t in r.entries ==>
            (t in acc.entries && r.entries[t] == acc.entries[t]) ||
            (t == row.title && row.id in acc.remaining && r.entries[t] == PageRef(row.id, row.namespace)))
      && (row.id in acc.remaining ==> row.title in r.entries && r.entries[row.title] == PageRef(row.id, row.namespace))
      && (row.id !in acc.remaining ==> r == acc)
  {
    if row.id in acc.remaining {
      Text.RemoveFirstCount(acc.remaining, row.id);
    }
  }

  /** Number of rows of the page table whose id is x. */
  function PageIdCount(lines: seq<string>, x: string): nat {
    if |lines| == 0 then 0
    else
      (if ParsePage(lines[0]).Ok? && ParsePage(lines[0]).value.id == x then 1 else 0)
      + PageIdCount(lines[1..], x)
  }

  /** a - b, but never below zero. */
  function Drop(a: nat, b: nat): nat {
    if a >= b then a - b else 0
  }

  /** The loop of findPagesById from a given dict and id list on. Each row whose
      id is still listed consumes one occurrence of it, so an id listed k times
      is consumed by at most k rows and ids no row carries stay listed. */
  function LookupLines(lines: seq<string>, acc: PageLookup): (r: Result<PageLookup>)
    requires DictShape(acc)
    ensures r.Ok? <==> AllPagesParse(lines)
    ensures r.Err? ==> r.error == ValueError
    ensures r.Ok? ==> DictShape(r.value)
  {
    if |lines| == 0 then Ok(acc)
    else
      var row :- ParsePage(lines[0]);
      LookupLines(lines[1..], Absorb(acc, row))
  }

  /** What the loop does to the id list: each row whose id is still listed
      consumes one occurrence of it, so an id listed k times is consumed by at
      most k rows, ids no row carries stay listed, and only consuming rows add
      titles. Keys and their order are kept. */
  lemma {:induction false} LookupLinesCounts(lines: seq<string>, acc: PageLookup)
    requires DictShape(acc)
    requires LookupLines(lines, acc).Ok?
    ensures var r := LookupLines(lines, acc).value;
      && acc.titles <= r.titles
      && acc.entries.Keys <= r.entries.Keys
      && |r.titles| - |acc.titles| <= |acc.remaining| - |r.remaining|
      && forall x :: multiset(r.remaining)[x] == Drop(multiset(acc.remaining)[x], PageIdCount(lines, x))
  {
    if |lines| > 0 {
      var row := ParsePage(lines[0]).value;
      var next := Absorb(acc, row);
      AbsorbSpec(acc, row);
      LookupLinesCounts(lines[1..], next);
      assert forall x :: PageIdCount(lines, x) == (if x == row.id then 1 else 0) + PageIdCount(lines[1..], x);
    }
  }

  /** findPagesById: maps each title of a row whose id is in `ids` to that row's
      [id, namespace], and reports the id list left after the removals. */
  function FindPagesById(lines: seq<string>, ids: seq<string>): (r: Result<PageLookup>)
    ensures r.Ok? <==> AllPagesParse(lines)
    ensures r.Err? ==> r.error == ValueError
    ensures r.Ok? ==> DictShape(r.value)
    ensures r.Ok? ==> |r.value.entries| <= |r.value.titles| <= |ids| - |r.value.remaining|
    ensures r.Ok? ==> forall x :: multiset(r.value.remaining)[x] == Drop(multiset(ids)[x], PageIdCount(lines, x))
  {
    var r := LookupLines(lines, PageLookup([], map[], ids));
    if r.Ok? then
      DictSize(r.value);
      LookupLinesCounts(lines, PageLookup([], map[], ids));
      r
    else r
  }

  /** Completeness: a row read while its id still has a copy left in the
      list (fewer earlier rows carry that id than the list holds) has its
      title returned. */
  lemma FindPagesByIdFinds(lines: seq<string>, ids: seq<string>, i: nat)
    requires FindPagesById(lines, ids).Ok? && i < |lines| && ParsePage(lines[i]).Ok?
    requires PageIdCount(lines[..i], ParsePage(lines[i]).value.id) < multiset(ids)[ParsePage(lines[i]).value.id]
    ensures ParsePage(lines[i]).value.title in FindPagesById(lines, ids).value.entries
  {
    var acc := PageLookup([], map[], ids);
    var row := ParsePage(lines[i]).value;
    AllPagesParseSplit(lines, i);
    assert lines == lines[..i] + lines[i..];
    LookupLinesAppend(lines[..i], lines[i..], acc);
    var mid := LookupLines(lines[..i], acc).value;
    LookupLinesCounts(lines[..i], acc);
    assert multiset(mid.remaining)[row.id] > 0;
    AbsorbSpec(mid, row);
    var next := Absorb(mid, row);
    assert lines[i..][0] == lines[i] && lines[i..][1..] == lines[i + 1..];
    assert LookupLines(lines[i..], mid) == LookupLines(lines[i + 1..], next);
    LookupLinesCounts(lines[i + 1..], next);
  }

  /** Both parts of a table whose rows all parse have rows that all parse. */
  lemma {:induction false} AllPagesParseSplit(lines: seq<string>, i: nat)
    requires AllPagesParse(lines) && i <= |lines|
    ensures AllPagesParse(lines[..i]) && AllPagesParse(lines[i..])
  {
    if i > 0 {
      AllPagesParseSplit(lines[1..], i - 1);
      assert lines[..i][1..] == lines[1..][..i - 1];
      assert lines[i..] == lines[1..][i - 1..];
    }
  }

  /** In a dict the key order and the key set have the same size. */
  lemma DictSize(d: PageLookup)
    requires DictShape(d)
    ensures |d.entries| == |d.titles|
  {
    Text.DistinctCard(d.titles);
  }

  /** Every stored entry comes from a row of the table carrying that title,
      whose id was in the caller's list. */
  lemma {:induction false} LookupFromRows(lines: seq<string>, acc: PageLookup, t: string)
    requires DictShape(acc)
    requires LookupLines(lines, acc).Ok?
    requires t in LookupLines(lines, acc).value.entries
    ensures var e := LookupLines(lines, acc).value.entries[t];
      (t in acc.entries && e == acc.entries[t]) ||
      (e.id in acc.remaining && PageRowIn(lines, PageRow(e.id, e.namespace, t)))
  {
    if |lines| > 0 {
      var row := ParsePage(lines[0]).value;
      var next := Absorb(acc, row);
      AbsorbSpec(acc, row);
      var r := LookupLines(lines, acc).value;
      assert r == LookupLines(lines[1..], next).value;
      var e := r.entries[t];
      LookupFromRows(lines[1..], next, t);
      if !(t in next.entries && e == next.entries[t]) {
        assert multiset(next.remaining)[e.id] <= multiset(acc.remaining)[e.id];
        PageRowInTail(lines, PageRow(e.id, e.namespace, t));
      } else if !(t in acc.entries && e == acc.entries[t]) {
        assert ParsePage(lines[0]) == Ok(PageRow(e.id, e.namespace, t));
      }
    }
  }

  lemma PageRowInTail(lines: seq<string>, row: PageRow)
    requires |lines| > 0 && PageRowIn(lines[1..], row)
    ensures PageRowIn(lines, row)
  {
    var i :| 0 <= i < |lines[1..]| && ParsePage(lines[1..][i]) == Ok(row);
    assert lines[i + 1] == lines[1..][i];
  }

  /** Some line of the page table parses to `row`. */
  ghost predicate PageRowIn(lines: seq<string>, row: PageRow) {
    exists i :: 0 <= i < |lines| && ParsePage(lines[i]) == Ok(row)
  }

  /** Every title findPagesById returns is the title of a row whose id is in
      `ids`, and maps to that row's [id, namespace]. */
  lemma FindPagesByIdFromRows(lines: seq<string>, ids: seq<string>)
    requires FindPagesById(lines, ids).Ok?
    ensures var r := FindPagesById(lines, ids).value;
      forall t :: t in r.entries ==>
        r.entries[t].id in ids && PageRowIn(lines, PageRow(r.entries[t].id, r.entries[t].namespace, t))
  {
    var r := FindPagesById(lines, ids).value;
    forall t | t in r.entries
      ensures r.entries[t].id in ids && PageRowIn(lines, PageRow(r.entries[t].id, r.entries[t].namespace, t))
    {
      LookupFromRows(lines, PageLookup([], map[], ids), t);
    }
  }

  /** Reading the table in two parts continues from the dict and id list the
      first part left. */
  lemma {:induction false} LookupLinesAppend(a: seq<string>, b: seq<string>, acc: PageLookup)
    requires DictShape(acc)
    requires AllPagesParse(a)
    ensures LookupLines(a + b, acc) == LookupLines(b, LookupLines(a, acc).value)
  {
    if |a| > 0 {
      assert (a + b)[1..] == a[1..] + b;
      assert (a + b)[0] == a[0];
      LookupLinesAppend(a[1..], b, Absorb(acc, ParsePage(a[0]).value));
    } else {
      assert a + b == b;
    }
  }

  /** When two matching rows share a title the later one wins: a last row whose
      id is still listed binds its title to its own [id, namespace]. */
  lemma LastMatchWins(lines: seq<string>, line: string, acc: PageLookup)
    requires DictShape(acc)
    requires LookupLines(lines, acc).Ok?
    requires ParsePage(line).Ok?
    requires ParsePage(line).value.id in LookupLines(lines, acc).value.remaining
    ensures var row := ParsePage(line).value;
      && LookupLines(lines + [line], acc).Ok?
      && row.title in LookupLines(lines + [line], acc).value.entries
      && LookupLines(lines + [line], acc).value.entries[row.title] == PageRef(row.id, row.namespace)
  {
    LookupLinesAppend(lines, [line], acc);
    assert [line][1..] == [];
  }
}

=== FILE: wikigraph.dfy ===
/** The taxonomy over a local Wikipedia category graph, built from the
    categorylinks and page tables of a dump. Its state is the two tables, the
    list of category titles already queued for expansion (kept for the whole
    life of the object), the set of page titles under the root computed at
    construction, and that set's size. */
module WikiGraph {
  import opened Outcomes
  import Text
  import opened WikiDemo
  import Paths
  import opened CategoryWalk

  /** The fixed root category of this backend. */
  const Root: string := "'Recipes'"

  datatype WCGTaxonomy = WCGTaxonomy(
    catlinks: seq<string>,
    pages: seq<string>,
    catNames: seq<string>,
    pageNames: set<string>,
    numInsts: nat)

  /** Both tables parse row by row. */
  predicate WellFormed(catlinks: seq<string>, pages: seq<string>) {
    AllCatlinksParse(catlinks) && AllPagesParse(pages)
  }

  /** One iteration's lookups: the member ids of `c`, then the titles of its
      page ids and of its sub-category ids. */
  function Expand(catlinks: seq<string>, pages: seq<string>, c: string): (r: Result<Expansion>)
    ensures r.Ok? <==> WellFormed(catlinks, pages)
    ensures r.Err? ==> r.error == ValueError
  {
    var m :- FindPagesInCategory(catlinks, c);
    var ps :- FindPagesById(pages, m.pageIds);
    var ss := FindPagesById(pages, m.subcatIds);
    Ok(Expansion(ps.titles, ss.value.titles))
  }

  /** The page titles directly in category c (empty when the tables are malformed). */
  function PageTitles(catlinks: seq<string>, pages: seq<string>, c: string): set<string> {
    var e := Expand(catlinks, pages, c);
    if e.Ok? then Text.Elems(e.value.pages) else {}
  }

  /** The sub-category titles directly in category c. */
  function SubcatTitles(catlinks: seq<string>, pages: seq<string>, c: string): seq<string> {
    var e := Expand(catlinks, pages, c);
    if e.Ok? then e.value.subcats else []
  }

  /** The 'page' links of the category graph, per category. */
  function PageLinks(catlinks: seq<string>, pages: seq<string>): string -> set<string> {
    c => PageTitles(catlinks, pages, c)
  }

  /** The 'subcat' links of the category graph as successor lists. */
  function SubcatLinks(catlinks: seq<string>, pages: seq<string>): string -> seq<string> {
    c => SubcatTitles(catlinks, pages, c)
  }

  /** Every title of a well-formed page-table row: a finite bound on the
      categories a walk can queue. */
  ghost function TitleUniverse(pages: seq<string>): set<string> {
    if |pages| == 0 then {}
    else
      var head := ParsePage(pages[0]);
      (if head.Ok? then {head.value.title} else {}) + TitleUniverse(pages[1..])
  }

  lemma {:induction false} InTitleUniverse(pages: seq<string>, row: PageRow)
    requires PageRowIn(pages, row)
    ensures row.title in TitleUniverse(pages)
  {
    var i :| 0 <= i < |pages| && ParsePage(pages[i]) == Ok(row);
    if i > 0 {
      assert pages[1..][i - 1] == pages[i];
      InTitleUniverse(pages[1..], row);
    }
  }

  /** Sub-category titles are titles of page-table rows. */
  lemma SubcatTitlesInUniverse(catlinks: seq<string>, pages: seq<string>, c: string)
    ensures forall s :: s in SubcatTitles(catlinks, pages, c) ==> s in TitleUniverse(pages)
  {
    var e := Expand(catlinks, pages, c);
    if e.Ok? {
      var m := FindPagesInCategory(catlinks, c).value;
      var ss := FindPagesById(pages, m.subcatIds).value;
      FindPagesByIdFromRows(pages, m.subcatIds);
      forall s | s in ss.titles
        ensures s in TitleUniverse(pages)
      {
        assert s in ss.entries;
        InTitleUniverse(pages, PageRow(ss.entries[s].id, ss.entries[s].namespace, s));
      }
    }
  }

  /** get_descendant_instances: the walk over this taxonomy's tables, with the
      object's persistent catNames list, so a category queued by an earlier
      call (or during construction) is never expanded again. The start node
      itself is not recorded. */
  method DescendantInstances(t: WCGTaxonomy, node: string) returns (r: Result<set<string>>, t': WCGTaxonomy)
    requires Text.NoDups(t.catNames)
    ensures t' == t.(catNames := t'.catNames)
    ensures t.catNames <= t'.catNames && Text.NoDups(t'.catNames)
    ensures r.Ok? <==> WellFormed(t.catlinks, t.pages)
    ensures r.Err? ==> r.error == ValueError && t' == t
    ensures forall c :: c in t'.catNames[|t.catNames|..] ==> Paths.Reaches(SubcatLinks(t.catlinks, t.pages), node, c)
    ensures forall c :: c in t'.catNames[|t.catNames|..] ==>
      exists d :: (d == node || d in t'.catNames[|t.catNames|..]) && c in SubcatLinks(t.catlinks, t.pages)(d)
    ensures r.Ok? ==> forall c, s ::
      (c == node || c in t'.catNames[|t.catNames|..]) && s in SubcatLinks(t.catlinks, t.pages)(c) ==> s in t'.catNames
    ensures r.Ok? ==> forall x :: x in r.value <==>
      exists c :: (c == node || c in t'.catNames[|t.catNames|..]) && x in PageLinks(t.catlinks, t.pages)(c)
  {
    var catlinks, pages := t.catlinks, t.pages;
    var expand := c => Expand(catlinks, pages, c);
    forall c, s | s in SubcatLinks(catlinks, pages)(c)
      ensures s in TitleUniverse(pages)
    {
      SubcatTitlesInUniverse(catlinks, pages, c);
    }
    var names;
    r, names := Walk(expand, WellFormed(catlinks, pages), PageLinks(catlinks, pages), SubcatLinks(catlinks, pages),
                     TitleUniverse(pages), t.catNames, node);
    t' := t.(catNames := names);
  }

  /** The constructor: the catNames list starts empty, then the descendants of
      the root are computed (recording every category reached below it) and
      kept with their count. */
  method NewWCG(catlinks: seq<string>, pages: seq<string>) returns (r: Result<WCGTaxonomy>)
    ensures r.Ok? <==> WellFormed(catlinks, pages)
    ensures r.Err? ==> r.error == ValueError
    ensures r.Ok? ==> r.value.catlinks == catlinks && r.value.pages == pages
    ensures r.Ok? ==> Text.NoDups(r.value.catNames)
    ensures r.Ok? ==> r.value.numInsts == |r.value.pageNames|
    ensures r.Ok? ==> forall c :: c in r.value.catNames ==> Paths.Reaches(SubcatLinks(catlinks, pages), Root, c)
    ensures r.Ok? ==> forall c :: Paths.Reaches(SubcatLinks(catlinks, pages), Root, c) ==> c == Root || c in r.value.catNames
    ensures r.Ok? ==> forall c :: c in r.value.catNames ==>
      exists d :: (d == Root || d in r.value.catNames) && c in SubcatLinks(catlinks, pages)(d)
    ensures r.Ok? ==> forall x :: x in r.value.pageNames <==>
      exists c :: Paths.Reaches(SubcatLinks(catlinks, pages), Root, c) && x in PageLinks(catlinks, pages)(c)
  {
    var t := WCGTaxonomy(catlinks, pages, [], {}, 0);
    var d, t1 := DescendantInstances(t, Root);
    if d.Err? {
      return Err(d.error);
    }
    assert t1.catNames[|t.catNames|..] == t1.catNames;
    RootClosure(SubcatLinks(catlinks, pages), PageLinks(catlinks, pages), t1.catNames, d.value);
    r := Ok(t1.(pageNames := d.value, numInsts := |d.value|));
  }

  /** A name list closed under the links from the root, all of whose names
      the root reaches, holds every category the root reaches; a page set
      gathered from the root and those names is then that of the whole
      reachable part. */
  lemma RootClosure(links: string -> seq<string>, leaves: string -> set<string>, names: seq<string>, found: set<string>)
    requires forall c :: c in names ==> Paths.Reaches(links, Root, c)
    requires forall c, s :: (c == Root || c in names) && s in links(c) ==> s in names
    requires forall x :: x in found <==> exists c :: (c == Root || c in names) && x in leaves(c)
    ensures forall c :: Paths.Reaches(links, Root, c) ==> c == Root || c in names
    ensures forall x :: x in found <==> exists c :: Paths.Reaches(links, Root, c) && x in leaves(c)
  {
    var closed := {Root} + Text.Elems(names);
    forall c | Paths.Reaches(links, Root, c)
      ensures c == Root || c in names
    {
      Paths.ClosedReach(links, closed, Root, c);
    }
    Paths.ReachesSelf(links, Root);
  }

  /** num_instances: the size of the root's descendant set kept at
      construction (NewWCG); no later operation changes it. */
  function NumInstances(t: WCGTaxonomy): (n: nat)
    ensures n == t.numInsts
  {
    t.numInsts
  }

  /** get_root: always the 'Recipes' category, quoted as the dump stores titles. */
  function GetRoot(t: WCGTaxonomy): (r: string)
    ensures r == "'Recipes'"
  {
    Root
  }

  /** The row get_ancestor_categories settles on: rows before it parse and
      carry another title, and it parses and either carries the title or is
      the last row of the table. */
  ghost predicate ChosenRow(pages: seq<string>, node: string, i: int) {
    && 0 <= i < |pages|
    && (forall j :: 0 <= j < i ==> ParsePage(pages[j]).Ok? && ParsePage(pages[j]).value.title != node)
    && ParsePage(pages[i]).Ok?
    && (ParsePage(pages[i]).value.title == node || i == |pages| - 1)
  }

  /** The scan of get_ancestor_categories over the page table: it stops at the
      first row titled `node`; without one, the id of the last row read is
      used, and an empty table leaves the id unbound. Each row read must have
      seven fields. `last` is the id read so far. */
  function ScanPageId(pages: seq<string>, node: string, last: Option<string>): (r: Result<string>)
    ensures r.Err? ==> r.error in {ValueError, UnboundLocalError}
    ensures r == Err(UnboundLocalError) <==> |pages| == 0 && last.None?
  {
    if |pages| == 0 then
      if last.Some? then Ok(last.value) else Err(UnboundLocalError)
    else
      var row :- ParsePage(pages[0]);
      if row.title == node then Ok(row.id) else ScanPageId(pages[1..], node, Some(row.id))
  }

  function PageIdOf(pages: seq<string>, node: string): (r: Result<string>)
    ensures r.Err? ==> r.error in {ValueError, UnboundLocalError}
    ensures r == Err(UnboundLocalError) <==> |pages| == 0
  {
    ScanPageId(pages, node, None)
  }

  /** The scan succeeds exactly when it reaches a chosen row, and then yields
      that row's id. */
  lemma {:induction false} ScanPageIdSpec(pages: seq<string>, node: string, last: Option<string>)
    requires |pages| > 0
    ensures ScanPageId(pages, node, last).Ok? <==> exists i :: ChosenRow(pages, node, i)
    ensures forall i :: ChosenRow(pages, node, i) ==>
      ScanPageId(pages, node, last) == Ok(ParsePage(pages[i]).value.id)
  {
    var head := ParsePage(pages[0]);
    if head.Ok? && head.value.title != node && |pages| > 1 {
      var rest := pages[1..];
      ScanPageIdSpec(rest, node, Some(head.value.id));
      forall i | ChosenRow(pages, node, i)
        ensures i > 0 && ChosenRow(rest, node, i - 1)
      {
        assert i != 0;
        forall j | 0 <= j < i - 1
          ensures ParsePage(rest[j]).Ok? && ParsePage(rest[j]).value.title != node
        {
          assert rest[j] == pages[j + 1];
        }
        assert rest[i - 1] == pages[i];
      }
      forall i | ChosenRow(rest, node, i)
        ensures ChosenRow(pages, node, i + 1)
      {
        forall j | 0 <= j < i + 1
          ensures ParsePage(pages[j]).Ok? && ParsePage(pages[j]).value.title != node
        {
          if j > 0 {
            assert pages[j] == rest[j - 1];
          }
        }
        assert pages[i + 1] == rest[i];
      }
    } else if head.Ok? {
      assert ChosenRow(pages, node, 0);
      forall i | ChosenRow(pages, node, i)
        ensures i == 0
      {
      }
    } else {
      forall i | ChosenRow(pages, node, i)
        ensures false
      {
      }
    }
  }

  /** Direct parents only: the category labels of every categorylinks row of
      page `pid`, whatever its member type, in a set. */
  function ParentsOf(rows: seq<Catlink>, pid: string): set<string> {
    if |rows| == 0 then {}
    else (if rows[0].pageId == pid then {rows[0].category} else {}) + ParentsOf(rows[1..], pid)
  }

  lemma {:induction false} ParentsOfSpec(rows: seq<Catlink>, pid: string, x: string)
    ensures x in ParentsOf(rows, pid) <==> exists k :: Catlink(pid, x, k) in rows
  {
    if |rows| > 0 {
      ParentsOfSpec(rows[1..], pid, x);
      assert rows == [rows[0]] + rows[1..];
      if rows[0].pageId == pid && rows[0].category == x {
        assert Catlink(pid, x, rows[0].kind) in rows;
      }
      forall k | Catlink(pid, x, k) in rows && Catlink(pid, x, k) != rows[0]
        ensures Catlink(pid, x, k) in rows[1..]
      {
      }
    }
  }

  /** getCategoriesOfPage: every row of the categorylinks table is parsed
      (ValueError on a malformed one) and the labels of the rows of `pid` are
      collected. The `root` argument of the source is unused and not modelled. */
  function CategoriesOfPage(catlinks: seq<string>, pid: string): (r: Result<set<string>>)
    ensures r.Ok? <==> AllCatlinksParse(catlinks)
    ensures r.Err? ==> r.error == ValueError
  {
    var rows :- ParseCatlinks(catlinks);
    Ok(ParentsOf(rows, pid))
  }

  /** Some line of the categorylinks table parses to a row of page `pid` in
      category `x`. */
  ghost predicate ParentRowIn(catlinks: seq<string>, pid: string, x: string) {
    exists i, k :: 0 <= i < |catlinks| && ParseCatlink(catlinks[i]) == Ok(Catlink(pid, x, k))
  }

  /** getCategoriesOfPage returns exactly the labels of the rows of `pid`. */
  lemma CategoriesOfPageSpec(catlinks: seq<string>, pid: string, x: string)
    requires CategoriesOfPage(catlinks, pid).Ok?
    ensures x in CategoriesOfPage(catlinks, pid).value <==> ParentRowIn(catlinks, pid, x)
  {
    var rows := ParseCatlinks(catlinks).value;
    ParentsOfSpec(rows, pid, x);
    if x in ParentsOf(rows, pid) {
      var k :| Catlink(pid, x, k) in rows;
      var i :| 0 <= i < |rows| && rows[i] == Catlink(pid, x, k);
      ParseCatlinksAt(catlinks, i);
    }
    if ParentRowIn(catlinks, pid, x) {
      var i, k :| 0 <= i < |catlinks| && ParseCatlink(catlinks[i]) == Ok(Catlink(pid, x, k));
      ParseCatlinksAt(catlinks, i);
      assert rows[i] == Catlink(pid, x, k);
    }
  }

  /** get_ancestor_categories: the id of the chosen page row, then that page's
      direct parent categories. The page table is read first, so its errors
      come first. */
  function AncestorCategories(t: WCGTaxonomy, node: string): (r: Result<set<string>>)
    ensures r.Err? ==> r.error in {ValueError, UnboundLocalError}
    ensures r == Err(UnboundLocalError) <==> |t.pages| == 0
  {
    var pid :- PageIdOf(t.pages, node);
    CategoriesOfPage(t.catlinks, pid)
  }

  /** On well-formed tables with at least one page row, the result is the set
      of direct parents of the chosen row's page: the first row titled `node`,
      or the last row when none is. */
  lemma AncestorCategoriesSpec(t: WCGTaxonomy, node: string, x: string)
    requires WellFormed(t.catlinks, t.pages) && |t.pages| > 0
    ensures AncestorCategories(t, node).Ok?
    ensures exists i :: && ChosenRow(t.pages, node, i)
                        && (x in AncestorCategories(t, node).value <==> ParentRowIn(t.catlinks, ParsePage(t.pages[i]).value.id, x))
  {
    ChosenRowExists(t.pages, node);
    var i :| ChosenRow(t.pages, node, i);
    ScanPageIdSpec(t.pages, node, None);
    CategoriesOfPageSpec(t.catlinks, ParsePage(t.pages[i]).value.id, x);
  }

  /** A non-empty table whose rows all parse has a chosen row. */
  lemma {:induction false} ChosenRowExists(pages: seq<string>, node: string)
    requires AllPagesParse(pages) && |pages| > 0
    ensures exists i :: ChosenRow(pages, node, i)
  {
    if ParsePage(pages[0]).value.title == node || |pages| == 1 {
      assert ChosenRow(pages, node, 0);
    } else {
      var rest := pages[1..];
      ChosenRowExists(rest, node);
      var i :| ChosenRow(rest, node, i);
      forall j | 0 <= j < i + 1
        ensures ParsePage(pages[j]).Ok? && ParsePage(pages[j]).value.title != node
      {
        if j > 0 {
          assert pages[j] == rest[j - 1];
        }
      }
      assert pages[i + 1] == rest[i];
      assert ChosenRow(pages, node, i + 1);
    }
  }
}
